=== FILE: README.md ===
# Bakery backend: a Dafny model of its service core

This project models the core of a Spring bakery backend.

- **Shopping cart.** A cart holds a set of line items. Lines can be added with a stock check, have their quantity updated, be removed, or be cleared. A cart can be projected to a view with its lines, the number of lines and the total amount.
- **Identifiers.** Prefixed sequential ids are generated for carts, cart items and users.
- **Users.** Users can be registered and saved; email uniqueness is enforced, raw passwords are hashed, and each user is provisioned one cart. There are also login by email or id, deletion, and listing by role.
- **Products.** The catalogue validates product ids and non-negative stock.
- **Branches.** Branch names are unique under the name column's collation.
- **Chatbot.** The pure parts are modelled: sender-to-role mapping, the ordered turn list of a request, and path lookup in the reply.

The model is functional. Each repository is a map. Each service operation is a pure function, or a method where the Java code iterates. An operation takes the database and returns either the new database or the exception it would throw. Every Java method is a single transaction, so a failure carries no state: the rollback is built into the type.

Money is an exact integer. A Java `int` is the subset type `Int32`. The one `int` sum in the core that can overflow, the merged quantity in `addItemToCart`, is written out with `Wrap32` in `CartService.MergeLineAsWritten`. The service-level add uses the corrected merge instead, as recorded under "Findings" and "Left out". Object identity is an `oid` field, so a `HashSet` whose elements compare by id (identity while the id is null) becomes a map keyed by `ItemKey`. A repository query that returns `Optional` throws when more than one row matches; that case is a `NonUnique…` error, not a precondition.

Modules, one per file:
- `Common` (common.dfy): the `Option` and `Result` types.
- `JavaLang` (java_lang.dfy): `int` wrap-around, string hashes and ASCII lower-casing.
- `IdGenerator` (id_generator.dfy).
- `CartItems` (cart_item.dfy), `Products` (product.dfy) and `Carts` (cart.dfy): the entities.
- `CartService` (cart_service.dfy), `UserService` (user_service.dfy), `ProductService` (product_service.dfy) and `BranchService` (branch_service.dfy).
- `Gemini` (gemini.dfy).

Source paths below are relative to the repository root.

## Model

| member | source | states |
|---|---|---|
| IdGenerator.SqlMax | src/main/java/com/example/bakery/service/IdGeneratorService.java:27-30 | The SQL maximum of the numeric suffixes is null exactly when no id has the prefix, and is otherwise the largest suffix. |
| IdGenerator.NextSuffix | src/main/java/com/example/bakery/service/IdGeneratorService.java:29-31 | The next number exceeds every existing suffix. It is 1 on an empty table and otherwise the existing maximum plus one. |
| IdGenerator.GenerateId | src/main/java/com/example/bakery/service/IdGeneratorService.java:26-33 | Formatting fails exactly when the digit width `length - prefix.length()` is not positive. Otherwise the id starts with the prefix, its suffix reads back as the next number, and it is not an id already stored. |
| IdGenerator.CartId | src/main/java/com/example/bakery/service/IdGeneratorService.java:35-37 | Cart ids use prefix "CRT" and length 7, and generation always succeeds. |
| IdGenerator.CartItemId | src/main/java/com/example/bakery/service/IdGeneratorService.java:39-41 | Cart item ids use prefix "CIT" and length 7, and generation always succeeds. |
| IdGenerator.UserId | src/main/java/com/example/bakery/service/IdGeneratorService.java:43-45 | User ids use prefix "CUS" and length 7, and generation always succeeds. |
| IdGenerator.DecimalRoundTrip | src/main/java/com/example/bakery/service/IdGeneratorService.java:32 | Reading back the decimal rendering of a number gives the number. |
| IdGenerator.PaddedRoundTrip | src/main/java/com/example/bakery/service/IdGeneratorService.java:27-32 | `CAST(… AS UNSIGNED)` of a zero-padded rendering gives back the number, whatever the padding. |
| IdGenerator.RenderRoundTrip | src/main/java/com/example/bakery/service/IdGeneratorService.java:27-32 | A generated id is the prefix followed by the padded number, and `SUBSTRING` after the prefix casts back to that number. |
| IdGenerator.RenderIsFresh | src/main/java/com/example/bakery/service/IdGeneratorService.java:29-32 | A number above every existing suffix renders to an id that is not already in the table. |
| IdGenerator.DecimalLength | src/main/java/com/example/bakery/service/IdGeneratorService.java:32 | A number fits in w digits exactly when it is below 10^w. |
| IdGenerator.GeneratedLength | src/main/java/com/example/bakery/service/IdGeneratorService.java:32 | The id has exactly the requested length while the number fits the width, and is longer once it does not (`%0Nd` pads but never truncates). |
| IdGenerator.ServiceIdLength | src/main/java/com/example/bakery/service/IdGeneratorService.java:35-45 | Cart, cart item and user ids have 7 characters while the next number of that kind is below 10000, whatever number of ids exists. |
| IdGenerator.NextAfterInsert | src/main/java/com/example/bakery/service/IdGeneratorService.java:29-31 | Inserting the next number makes the following one exactly one larger. |
| IdGenerator.SequentialAllocation | src/main/java/com/example/bakery/service/IdGeneratorService.java:26-33 | Storing a generated id makes the next call return a different id whose number is one larger. |
| IdGenerator.OtherPrefixIgnored | src/main/java/com/example/bakery/service/IdGeneratorService.java:27-28 | Ids without the prefix do not affect generation (the `LIKE 'prefix%'` filter). |
| IdGenerator.NumericNotLexicographic | src/main/java/com/example/bakery/service/IdGeneratorService.java:27-31 | The maximum is numeric, not lexicographic: after "CUS9" and "CUS10" the next number is 11. |
| JavaLang.Wrap32 | src/main/java/com/example/bakery/service/CartService.java:58 | Java `int` addition: the result is congruent to the exact sum modulo 2^32, and equals it when the sum is in range. |
| CartItems.EqualsIsSameKey | src/main/java/com/example/bakery/model/CartItem.java:36-47 | Among items of one heap, `equals` holds exactly when the items have the same set key: the same non-null id, or the same object. |
| CartItems.HashRespectsEquals | src/main/java/com/example/bakery/model/CartItem.java:49-53 | Equal items have equal hash codes, and an item without an id hashes to 0. |
| CartItems.SameKeyEqual | src/main/java/com/example/bakery/model/CartItem.java:44-46 | Two items with the same non-null id are equal both ways. |
| CartItems.NullKeyOnlySelf | src/main/java/com/example/bakery/model/CartItem.java:38-46 | An item without an id equals no other object. |
| CartItems.EqualsIsEquivalence | src/main/java/com/example/bakery/model/CartItem.java:36-47 | For items with ids, `equals` is reflexive, symmetric and transitive. |
| Carts.NewCart | src/main/java/com/example/bakery/model/Cart.java:30-33 | A new cart has no key, no owner and an empty item set. |
| Carts.AddCartItem | src/main/java/com/example/bakery/model/Cart.java:43-46 | The item's key is in the set afterwards and the item points back to the cart. An equal element that is already present is kept rather than replaced. No other element changes. |
| Carts.RemoveCartItem | src/main/java/com/example/bakery/model/Cart.java:48-51 | Exactly the equal element leaves the set and the item's back-reference is cleared. An absent item leaves the set unchanged. |
| Carts.AddPresentKeepsSize | src/main/java/com/example/bakery/model/Cart.java:44 | Adding an item already present (by equals) does not grow the set. |
| Carts.AddAbsentGrowsByOne | src/main/java/com/example/bakery/model/Cart.java:44 | Adding an absent item grows the set by exactly one. |
| Carts.AddThenRemove | src/main/java/com/example/bakery/model/Cart.java:43-51 | Removing an item just added restores the original set. |
| Carts.RemoveIdempotent | src/main/java/com/example/bakery/model/Cart.java:48-51 | Removing twice is the same as removing once. |
| Carts.CartEqualsContract | src/main/java/com/example/bakery/model/Cart.java:53-69 | Carts with the same non-null id are equal. A cart without an id equals only itself. Equal carts hash alike, and a cart without an id hashes to 0. |
| CartService.Enumerate | src/main/java/com/example/bakery/service/CartService.java:84 | A stream over the item set visits every item exactly once, in some order. |
| CartService.TotalRemove | src/main/java/com/example/bakery/service/CartService.java:94-96 | The reference total is one line's subtotal plus the total of the rest, for any line chosen. |
| CartService.SumOverAnyOrder | src/main/java/com/example/bakery/service/CartService.java:94-96 | Summing the subtotals along any enumeration of the items gives the order-independent total. |
| CartService.LinesOf | src/main/java/com/example/bakery/service/CartService.java:84-124 | There is one line per visited item, in visiting order, each with the item's id, the key of the product row it loaded, that product's name and non-empty image, the price snapshot, the quantity and the subtotal. |
| CartService.SumLinesIsSumOver | src/main/java/com/example/bakery/service/CartService.java:94-122 | The sum of the lines' subtotals is the sum of price times quantity over the visited items. |
| CartService.Project | src/main/java/com/example/bakery/service/CartService.java:83-105 | The view fails exactly when a line's product is missing or the cart has no user. Otherwise it reports the cart's id and owner, one line per item in some order, a `totalItems` equal to the number of lines, and a `totalAmount` equal to the sum of subtotals. |
| CartService.ProjectOwned | src/main/java/com/example/bakery/service/CartService.java:83-105 | For an owned cart whose products all exist, the view describes the cart as above. |
| CartService.LineInLines | src/main/java/com/example/bakery/service/CartService.java:84-86 | Every line of the view is the line of some item in the cart. |
| CartService.ItemInLines | src/main/java/com/example/bakery/service/CartService.java:84-86 | Every item in the cart has its line somewhere in the view. |
| CartService.ProjectionLinesAreItems | src/main/java/com/example/bakery/service/CartService.java:83-105 | A view describing a cart lists only lines of the cart's items. |
| CartService.ProjectionItemsHaveLines | src/main/java/com/example/bakery/service/CartService.java:83-105 | A view describing a cart lists a line for every item it holds. |
| CartService.GetCart | src/main/java/com/example/bakery/service/CartService.java:34-39 | An unknown cart id fails with not found. A known cart is projected, and a successful result describes the stored cart. |
| CartService.Commit | src/main/java/com/example/bakery/service/CartService.java:77-188 | A mutated cart is persisted exactly when the projection that follows would not throw; otherwise the transaction rolls back. |
| CartService.MergeLine | src/main/java/com/example/bakery/service/CartService.java:56-63 | Merging into an existing line succeeds exactly when the summed quantity is within stock. Only the quantity changes, so the price snapshot is kept. |
| CartService.MergeLineAsWritten | src/main/java/com/example/bakery/service/CartService.java:58-62 | The merge as written: the Java `int` sum is wrapped before the stock check, and on success the line holds the wrapped value. |
| CartService.NewLine | src/main/java/com/example/bakery/service/CartService.java:65-70 | A new line has a freshly generated id that is not used by any line of any cart, the product, the requested quantity, and the product's current price as its snapshot. |
| CartService.PlaceLine | src/main/java/com/example/bakery/service/CartService.java:54-74 | More than one line for the product fails the lookup. With no line, the new line is added under a fresh key. On success the cart keeps its identity and owner and holds exactly one line for the product. |
| CartService.PlaceLineMerges | src/main/java/com/example/bakery/service/CartService.java:56-63 | With exactly one line for the product, the add succeeds exactly when the merged quantity is within stock, and then only that line's quantity grows. Otherwise it fails with insufficient stock. |
| CartService.FreshLineKey | src/main/java/com/example/bakery/service/CartService.java:66-73 | A line under a fresh id is not already in the cart. |
| CartService.AddItemToCart | src/main/java/com/example/bakery/service/CartService.java:42-80 | Errors come in the source's order: unknown cart, unknown product, then a quantity that is non-positive or above stock. Success requires an owned cart. Only this cart changes, and afterwards it holds exactly one line for the product. |
| CartService.LocateItem | src/main/java/com/example/bakery/service/CartService.java:144-180 | A line is found in the cart exactly when its id is there. A line that exists in another cart gives "not in this cart", and an id stored nowhere gives "not found". |
| CartService.UpdateCartItemQuantity | src/main/java/com/example/bakery/service/CartService.java:139-167 | For a line of this cart, the update succeeds exactly when the updated cart can be projected and, for a positive quantity, the line's product exists and the quantity is within its stock. A quantity of zero or less removes the line. A positive quantity above stock fails with insufficient stock. Otherwise only that line's quantity changes, and no other cart changes. A line not in this cart fails as not in this cart or not found. |
| CartService.RemoveItem | src/main/java/com/example/bakery/service/CartService.java:169-189 | For a line of this cart, the removal succeeds exactly when the cart without that line can be projected. Exactly that line then leaves the cart, the cart shrinks by one, and no other cart changes. An unknown cart fails as not found, and a line not in this cart fails as not in this cart or not found. |
| CartService.ClearCart | src/main/java/com/example/bakery/service/CartService.java:191-203 | Fails only for an unknown cart. Otherwise the cart keeps its id and owner and loses all lines, and nothing else changes. Guest carts are fine because no projection follows. |
| CartService.CreateGuestCart | src/main/java/com/example/bakery/service/CartService.java:128-137 | Always throws: the new cart has no user, so the projection that returns it fails, and the transaction stores nothing. |
| CartService.AddFirstLine | src/main/java/com/example/bakery/service/CartService.java:64-73 | Adding a product the owned cart lacks succeeds. It creates one new line under a fresh id with the requested quantity and the current price. The other lines are unchanged, and the total grows by price times quantity. |
| CartService.AddMergesLine | src/main/java/com/example/bakery/service/CartService.java:56-63 | Adding a product the cart already holds fails above stock. Otherwise it raises that line's quantity, keeps its price snapshot, and grows the total by snapshot price times the added quantity. |
| CartService.AddMergeSucceeds | src/main/java/com/example/bakery/service/CartService.java:56-79 | Adding a product the cart already holds succeeds exactly when the merged quantity is within stock and the cart can be projected. |
| CartService.MergedTotal | src/main/java/com/example/bakery/service/CartService.java:94-96 | Changing one line's quantity changes the total by that line's price times the difference. |
| CartService.TotalUpdate | src/main/java/com/example/bakery/service/CartService.java:94-96 | Replacing one line changes the total by the difference of the two subtotals. |
| CartService.StoredCartAfterNewLine | src/main/java/com/example/bakery/service/CartService.java:64-73 | A new line keeps the stored cart well formed: keyed by id, pointing back, positive quantity, one line per product. |
| CartService.ReplaceCartKeepsConsistent | src/main/java/com/example/bakery/service/CartService.java:72-77 | Storing a well-formed cart whose lines no other cart holds keeps every cart well formed and every line id in a single cart. |
| CartService.PlacedCartStored | src/main/java/com/example/bakery/service/CartService.java:54-74 | The cart an add builds, by merging or by a new line, is well formed, and its lines belong to no other cart. |
| CartService.AddPreservesConsistent | src/main/java/com/example/bakery/service/CartService.java:42-80 | Adding keeps every cart well formed and every line id in a single cart. |
| CartService.UpdatePreservesConsistent | src/main/java/com/example/bakery/service/CartService.java:139-167 | Updating a quantity keeps the database consistent. |
| CartService.RemovePreservesConsistent | src/main/java/com/example/bakery/service/CartService.java:169-189 | Removing a line keeps the database consistent. |
| CartService.ClearPreservesConsistent | src/main/java/com/example/bakery/service/CartService.java:191-203 | Clearing keeps the database consistent. |
| CartService.RemoveTwice | src/main/java/com/example/bakery/service/CartService.java:174-183 | After a successful removal, removing the same id again fails as not found. |
| CartService.UpdateNonPositiveIsRemove | src/main/java/com/example/bakery/service/CartService.java:152-155 | Updating to a quantity of zero or less behaves exactly as removing the line. |
| CartService.ForeignLineRejected | src/main/java/com/example/bakery/service/CartService.java:147-180 | A line of another cart can be neither updated nor removed through this cart. |
| CartService.ClearIdempotent | src/main/java/com/example/bakery/service/CartService.java:191-203 | Clearing twice is clearing once, and a cleared cart totals zero. |
| CartService.MergeOverflowCounterexample | src/main/java/com/example/bakery/service/CartService.java:58-62 | A line holding 2147483647 plus a request of 1 against a stock of 2147483647 passes the as-written check with quantity -2147483648. The corrected merge rejects it. |
| CartService.MergeStaysInStock | src/main/java/com/example/bakery/service/CartService.java:58-62 | A successful merge raises the quantity and keeps it within stock. |
| UserService.ExistsByEmail | src/main/java/com/example/bakery/service/UserService.java:64-66 | True exactly when a user has the email. The query throws when several do. |
| UserService.AssignedId | src/main/java/com/example/bakery/service/UserService.java:35-95 | A given id is kept. A missing one is a generated "CUS" id that is not yet stored. |
| UserService.WithNewCart | src/main/java/com/example/bakery/service/UserService.java:50-53 | A fresh "CRT" cart owned by the user, empty, is added. Afterwards the user owns exactly that cart, and existing carts are unchanged. |
| UserService.ProvisionCart | src/main/java/com/example/bakery/service/UserService.java:48-54 | The cart lookup throws when the user owns several carts. Otherwise the user ends up with exactly one cart, and a cart is created only when none existed. |
| UserService.RegisterUser | src/main/java/com/example/bakery/service/UserService.java:33-57 | Errors come in the source's order: duplicate emails, a taken email, a null password, several carts for the id, then a phone another user holds, which the UNIQUE phone column rejects at the flush. Registration succeeds exactly when none of these occurs. On success the saved user has the assigned id, email, phone and role. A password already starting "$2a$" is kept and any other is encoded. The user owns exactly one cart, and existing carts are unchanged. |
| UserService.SaveUser | src/main/java/com/example/bakery/service/UserService.java:91-117 | The save succeeds exactly when at most one user has the email, that user, if any, is the one being saved, and no other user holds its non-null phone. Otherwise several holders throw, a different holder gives email taken, and a clashing phone fails at the flush. A null password stays null, a hashed one is kept and a raw one is encoded. The user is upserted, and carts are never created because the provisioning branch is unreachable after the save. |
| UserService.Candidate | src/main/java/com/example/bakery/service/UserService.java:73-76 | The lookup is by email first and by id only when no user has that email. It throws when several users share the email. |
| UserService.AuthenticateUser | src/main/java/com/example/bakery/service/UserService.java:72-81 | The candidate is the user found by email, or by id when no user has that email. The candidate is returned exactly when the password matches its stored hash, and otherwise the result is empty. An identifier that matches nothing gives empty, and several users sharing the email make the lookup throw. |
| UserService.DeleteUser | src/main/java/com/example/bakery/service/UserService.java:119-126 | An unknown id fails. Otherwise exactly that user is removed, and the user's carts stay with no owner. No other cart field changes. |
| UserService.Filter | src/main/java/com/example/bakery/service/UserService.java:133-135 | The stream filter keeps exactly the listed users that pass the test. |
| UserService.GetUsersByRoleAsWritten | src/main/java/com/example/bakery/service/UserService.java:132-136 | The listing as written returns only stored users passing the as-written test. |
| UserService.GetUsersByRole | src/main/java/com/example/bakery/service/UserService.java:132-136 | The corrected listing contains exactly the stored users whose non-null role has the same flag as the request (zero or non-zero). |
| UserService.RoleListingAsWrittenIsEmpty | src/main/java/com/example/bakery/service/UserService.java:134 | `Integer.equals(Boolean)` is never true, so the listing as written is always empty. |
| UserService.FilterNothingKept | src/main/java/com/example/bakery/service/UserService.java:133-135 | A filter that keeps nothing yields the empty list. |
| UserService.RoleListingCounterexample | src/main/java/com/example/bakery/service/UserService.java:132-136 | With one user of role 1, asking for role 1 gives nothing as written and that user when corrected. |
| UserService.RegisteredOwnsEmail | src/main/java/com/example/bakery/service/UserService.java:33-57 | A registration with a free email, a password and at most one existing cart succeeds. It stores the user under its assigned id, and that user alone holds the email. |
| UserService.RegisterTwiceFails | src/main/java/com/example/bakery/service/UserService.java:38-40 | After a successful registration, registering another user with the same email fails as taken. |
| UserService.ProvisionIdempotent | src/main/java/com/example/bakery/service/UserService.java:48-49 | Provisioning twice creates no second cart. |
| UserService.RegisterThenAuthenticate | src/main/java/com/example/bakery/service/UserService.java:42-81 | A freshly registered user (free email, raw password) logs in by email with that password, provided the encoder accepts its own output. |
| UserService.EmailBeforeId | src/main/java/com/example/bakery/service/UserService.java:73-78 | With unique emails, an identifier that is someone's email authenticates that user or nobody. |
| UserService.OwnersAtMostOne | src/main/java/com/example/bakery/service/UserService.java:38-40 | With unique emails the email query never finds more than one row. |
| UserService.SavePreservesEmailsUnique | src/main/java/com/example/bakery/service/UserService.java:96-103 | Saving a user keeps emails unique. |
| UserService.RegisterPreservesEmailsUnique | src/main/java/com/example/bakery/service/UserService.java:38-45 | Registering a user keeps emails unique. |
| UserService.WritePreservesPhonesUnique | src/main/java/com/example/bakery/model/User.java:30-31 | Writing a user row whose phone clashes with no other user keeps non-null phones unique. |
| UserService.SavePreservesPhonesUnique | src/main/java/com/example/bakery/service/UserService.java:100-103 | Saving a user keeps non-null phones unique. |
| UserService.RegisterPreservesPhonesUnique | src/main/java/com/example/bakery/service/UserService.java:42-45 | Registering a user keeps non-null phones unique. |
| UserService.TakenPhoneRejected | src/main/java/com/example/bakery/model/User.java:30-31 | A fresh email with a phone another user holds makes both registration and saving fail with the constraint violation. |
| UserService.NullPhoneNeverClashes | src/main/java/com/example/bakery/model/User.java:30-31 | A user without a phone, with a fresh email and a password, registers and saves successfully whatever phones others hold. |
| UserService.DeletedUserCannotAuthenticate | src/main/java/com/example/bakery/service/UserService.java:72-126 | After deletion, login by any identifier returns normally and never returns the deleted user. |
| ProductService.SaveProduct | src/main/java/com/example/bakery/service/ProductService.java:47-65 | An id that does not match "PRD...." fails first, then a negative stock. Otherwise the product is upserted under its id and nothing else changes. |
| ProductService.UpdateProductStock | src/main/java/com/example/bakery/service/ProductService.java:74-82 | A negative count fails before the lookup, and an unknown id gives empty with no change. Otherwise only that product's stock becomes the new count. |
| ProductService.DeleteProduct | src/main/java/com/example/bakery/service/ProductService.java:106-111 | An unknown id fails. Otherwise exactly that product is removed. |
| ProductService.SaveThenDelete | src/main/java/com/example/bakery/service/ProductService.java:64-111 | Saving a new product and then deleting it restores the catalogue. |
| ProductService.SaveIdempotent | src/main/java/com/example/bakery/service/ProductService.java:64 | Saving the same product twice is saving it once. |
| ProductService.UpdateStockRoundTrip | src/main/java/com/example/bakery/service/ProductService.java:78-81 | Setting a stock and then setting the old one back restores the catalogue. |
| ProductService.OperationsKeepKeys | src/main/java/com/example/bakery/service/ProductService.java:47-111 | Save, stock update and delete keep every product stored under its own id. |
| ProductService.ProductIdExamples | src/main/java/com/example/bakery/service/ProductService.java:49 | The pattern fixes the length. "PRD0001" and "PRDabcd" pass. "PRD001", "PRD00001", "PRX0001" and an id with a line break fail. |
| BranchService.Store | src/main/java/com/example/bakery/service/BranchService.java:53 | A branch whose id is stored replaces that row. Any other branch is inserted under the next generated key. Either way the returned branch is stored under its id. |
| BranchService.SaveBranch | src/main/java/com/example/bakery/service/BranchService.java:46-54 | Names are compared through the table's collation key, as the name query compares them. The save succeeds exactly when at most one row has a name collating equal to the new one and that row, if any, is the branch being saved (same id). The name query throws when several rows match, and a clash with a branch that has no id or a different one is rejected. On success the branch is stored as `Store` describes. |
| BranchService.DeleteBranch | src/main/java/com/example/bakery/service/BranchService.java:78-83 | An unknown id fails. Otherwise exactly that branch is removed. |
| BranchService.SavePreservesNamesUnique | src/main/java/com/example/bakery/service/BranchService.java:46-54 | Saving keeps branch names unique under the collation. |
| BranchService.SavePreservesWellKeyed | src/main/java/com/example/bakery/service/BranchService.java:53 | Saving keeps every row under its own key, below the key counter. |
| BranchService.OnlyOwner | src/main/java/com/example/bakery/service/BranchService.java:48 | With unique names, the name query finds exactly the row holding that name or a variant the collation equates. |
| BranchService.ResaveOwnName | src/main/java/com/example/bakery/service/BranchService.java:49 | Re-saving a stored branch with its own id, under its name or a collation-equal variant, is accepted and replaces the row. |
| BranchService.NewBranchNameClash | src/main/java/com/example/bakery/service/BranchService.java:48-51 | A new branch, without an id, whose name collates equal to a stored one is rejected. |
| BranchService.CaseVariantRejected | src/main/java/com/example/bakery/service/BranchService.java:48-51 | With a case-insensitive collation, a new branch named "thanh khe" is rejected as taken when "Thanh Khe" is stored. |
| BranchService.ExactCollationAdmitsVariant | src/main/java/com/example/bakery/service/BranchService.java:48-53 | With exact comparison the same two spellings are different names and the insert succeeds, so the collation decides the outcome. |
| BranchService.InsertThenDelete | src/main/java/com/example/bakery/service/BranchService.java:53-83 | Inserting a new branch and deleting the key it received restores the rows. |
| BranchService.DeletePreserves | src/main/java/com/example/bakery/service/BranchService.java:78-83 | Deleting keeps names unique and rows well keyed. |
| Gemini.RoleOf | src/main/java/com/example/bakery/service/GeminiService.java:177-191 | The role is always "user" or "model". It is "model" exactly when the sender is non-null and lower-cases to "model", "bot" or "assistant". |
| Gemini.LowerCaseIdempotent | src/main/java/com/example/bakery/service/GeminiService.java:181 | Lower-casing twice is lower-casing once. |
| Gemini.RoleOfCaseInsensitive | src/main/java/com/example/bakery/service/GeminiService.java:181-185 | Letter case does not affect the role, and a role maps to itself. |
| Gemini.RoleExamples | src/main/java/com/example/bakery/service/GeminiService.java:178-185 | A null sender gives "user", "Bot" gives "model" and "User" gives "user". |
| Gemini.RoleFallbackExamples | src/main/java/com/example/bakery/service/GeminiService.java:181-190 | "ASSISTANT" gives "model", and an unknown sender such as "admin" falls back to "user". |
| Gemini.HistoryTurns | src/main/java/com/example/bakery/service/GeminiService.java:146-156 | There is one turn per history message, in order, with the mapped role and the message's own text. |
| Gemini.RequestTurns | src/main/java/com/example/bakery/service/GeminiService.java:41-162 | The request holds the history length plus 3 turns. They are, in order: the persona as a user turn, the acknowledgement as a model turn, the history, and the current message as a user turn. Every role is "user" or "model". |
| Gemini.NullHistoryIsEmpty | src/main/java/com/example/bakery/service/GeminiService.java:41 | A null history and an empty one give the same request of three turns. |
| Gemini.HistoryTurnsAppend | src/main/java/com/example/bakery/service/GeminiService.java:146-156 | A longer history extends the turns and keeps the earlier ones. |
| Gemini.Step | src/main/java/com/example/bakery/service/GeminiService.java:241-255 | One path step never lands on a null node; a missing or null node ends the lookup. |
| Gemini.ParsePath | src/main/java/com/example/bakery/service/GeminiService.java:236-258 | The result is the text exactly when the path leads to a textual node, null exactly when some step is missing, null or out of range, and thrown exactly when a negative index is used. |
| Gemini.ResolveAppend | src/main/java/com/example/bakery/service/GeminiService.java:240-256 | Following `p + q` is following `p`, then `q` from where `p` led. |
| Gemini.EmbedRoundTrip | src/main/java/com/example/bakery/service/GeminiService.java:240-256 | A path leads back to the non-null leaf of the tree built along it. |
| Gemini.EmbedNotNull | src/main/java/com/example/bakery/service/GeminiService.java:253-255 | The tree built along a path around a non-null leaf is not null. |
| Gemini.ReplyRoundTrip | src/main/java/com/example/bakery/service/GeminiService.java:169-258 | A reply shaped as "candidates[0].content.parts[0].text" yields its text. |
| Gemini.LeafHasNoPath | src/main/java/com/example/bakery/service/GeminiService.java:244-254 | A non-empty path from anything but an object gives null. |
| Gemini.NoCandidates | src/main/java/com/example/bakery/service/GeminiService.java:244-249 | A reply without candidates, or with an empty list of them, gives null. |
| Gemini.NegativeIndexThrows | src/main/java/com/example/bakery/service/GeminiService.java:245-253 | A negative index into an existing array throws rather than returning null. |

## Left out

- Controllers, security configuration and the application class: HTTP routing, status codes and CORS are outside the service core.
- The Gemini HTTP exchange (`executeGeminiRequest`, `RestTemplate`, API key and URL): network I/O. The system prompt and its acknowledgement are a `Persona` parameter, not the literal texts.
- Gemini.ParsePath: a non-textual final node is returned as `Rendered(node)`; its JSON serialisation is not modelled.
- Gemini.ParsePath: takes the path already split into segments; splitting on "." and `Integer.parseInt` of the index, with its `NumberFormatException`, are not modelled.
- BCrypt: `encode` and `matches` are the function values of an `Encoder` parameter. A null stored hash never matches.
- Timestamps (`createdAt`, `lastModifiedAt`, `LocalDateTime.now`) and auditing: clocks.
- Concurrency: simultaneous transactions and the race between the maximum scan and the insert are not modelled. Each operation is one atomic transaction.
- The native SQL text and `EntityManager` call of the id generator are modelled as "maximum of the numeric suffixes", with `CAST(… AS UNSIGNED)` reading the leading digits. The SQL `long` result never overflows in the model.
- Hibernate proxy unwrapping in `equals`: every object is its own class here.
- Database NOT NULL and length constraints (email, password hash, id columns) are not enforced by the model.
- UserService.DeleteUser: the clearing of the cart's owner is the database's ON DELETE SET NULL, which the source's comment states. The model performs it.
- BranchService.Store: saving a branch whose explicit id is not stored inserts it under a fresh generated key. This is the merge behaviour of the persistence provider and is assumed, not derived.
- UserService.GetUsersByRole: takes a non-null `int`. A null `Integer` argument, which throws on unboxing, is not modelled.
- ProductService.UpdateProductStock: takes a non-null `Int32`. A null `Integer`, which throws on unboxing, is not modelled.
- Gemini.RoleOf: `toLowerCase` is ASCII only. Locale-specific case mappings are not modelled.
- Pass-through finders (`getAllUsers`, `getUserById`, `findUserByEmail`, `existsByPhone`, `getBranchByName`, `getBranchesByHotline`, `getProductsByCategory`, `getProductsByPriceGreaterThanEqual`, and the like): each is a single repository call with nothing to state beyond the repository itself.
- CartService.LocateItem: the global `cartItemRepository.findById` is modelled by searching every cart's lines. This agrees with the table when line ids are unique across carts, which `Consistent` states.
- CartService.AddItemToCart: merges through the corrected `CartService.MergeLine`, so on a sum above 2147483647 it rejects the add, while the source wraps the sum, passes the stock check and saves a negative quantity. The wrapped success exists only in `CartService.MergeLineAsWritten` and `CartService.MergeOverflowCounterexample`.
- CartService.PlaceLine: the same corrected merge as `CartService.AddItemToCart`, for the same reason.
- CartService.PlaceLineMerges: states the merge with the exact sum, not the wrapped one, for the same reason.
- ProductService.SaveProduct: takes a non-null id and a non-null `Int32` stock. A null `productId`, which throws a `NullPointerException` in the pattern check, and a null `stockQuantity`, which throws on unboxing in the stock check, are not modelled.
- CartService.AddItemToCart: takes a non-null `Int32` quantity. A null `Integer`, which throws on unboxing at the quantity check after the cart and product lookups, is not modelled.
- UserService.RegisterUser: the phone clash is reported at the commit flush, after the cart lookup. If the persistence layer flushed the user row before `findByUser`, a user id with several carts and a taken phone would fail with the constraint violation rather than the duplicate-cart error. Both are failures that roll back.
- BranchService.SaveBranch: the collation is a key-function parameter of the table. The repository's schema text declares `utf8mb4_unicode_ci`, which ignores case, accents and trailing spaces. Only its ASCII case folding is instantiated, in `BranchService.CaseVariantRejected`; the Unicode collation algorithm itself is not modelled.
- ProductService.SaveProduct: product ids are map keys compared exactly, and so are the cart's product lookups. Under the products table's case-insensitive collation, "PRD000a" and "PRD000A" would name one row. Here they are two keys.
- IdGenerator.Suffixes: the prefix filter compares case exactly. A case-insensitive `LIKE 'CUS%'` would also match an id such as "cus0005". Every generated id carries the upper-case prefix, so this matters only for ids written by other means.
- UserService.EmailOwners: emails and phones are compared exactly. The users table's collation is not declared in the repository. Under a case-insensitive default, "A@x.com" and "a@x.com" would be one email for `findByEmail` and the UNIQUE constraint.
- CartService.CreateGuestCart: only the as-written behaviour is modelled. A projection that accepts ownerless carts is not given.

## Findings

| source | as written | input that shows it | evidently intended | confidence | as-written member | corrected member |
|---|---|---|---|---|---|---|
| src/main/java/com/example/bakery/service/CartService.java:58-59 | `int newQuantity = item.getQuantity() + request.getQuantity()` wraps around, so the stock guard compares a negative number | A line with quantity 2147483647, a request of 1 and a stock of 2147483647: the sum wraps to -2147483648, passes `newQuantity > stock`, and is saved | The merged quantity is checked against stock without overflow, so this add is rejected | not executed | CartService.MergeLineAsWritten, CartService.MergeOverflowCounterexample | CartService.MergeLine |
| src/main/java/com/example/bakery/service/UserService.java:132-135 | `user.getRole().equals(role != 0)` compares an `Integer` with a `Boolean`, which is never equal | One user with role 1, `getUsersByRole(1)`: returns an empty list | Users whose role flag (zero or non-zero) matches the requested one are listed | not executed | UserService.GetUsersByRoleAsWritten, UserService.RoleListingAsWrittenIsEmpty, UserService.RoleListingCounterexample | UserService.GetUsersByRole |

=== FILE: branch_service.dfy ===
/**
 * BranchService: branch names are unique across the branches table, and the table's
 * integer key is assigned by the database (AUTO_INCREMENT) when a branch is saved
 * without one.
 */
module BranchService {
  import opened Common
  import JavaLang

  datatype Branch = Branch(
    id: Option<int>,
    name: string,
    address: string,
    hotline: Option<string>,
    mapUrl: Option<string>)

  /**
   * The branches table: rows by key, the next key AUTO_INCREMENT hands out, and the
   * collation of the name column as a key function. Two names compare equal in a query
   * exactly when their keys agree; a case- and accent-insensitive collation maps the
   * variants of a name to one key.
   */
  datatype BranchTable = BranchTable(rows: map<int, Branch>, nextId: int, nameKey: string -> string)

  datatype BranchError =
    | NameTaken
    | NonUniqueName    // `findByName` found several rows
    | BranchNotFound

  /** Names equal under the column's collation. */
  predicate SameName(t: BranchTable, x: string, y: string)
  {
    t.nameKey(x) == t.nameKey(y)
  }

  /** Keys of the rows whose name collates equal to this one: the rows `findByName` matches. */
  function NameOwners(t: BranchTable, name: string): set<int>
  {
    set k | k in t.rows && SameName(t, t.rows[k].name, name)
  }

  /** No two rows share a name under the collation. */
  predicate NamesUnique(t: BranchTable)
  {
    forall a, b :: a in t.rows && b in t.rows && SameName(t, t.rows[a].name, t.rows[b].name) ==> a == b
  }

  /** Rows carry their key, and the counter is past every key. */
  predicate WellKeyed(t: BranchTable)
  {
    forall k :: k in t.rows ==> t.rows[k].id == Some(k) && k < t.nextId
  }

  /**
   * `repository.save(branch)`: a branch whose id names a stored row replaces that row;
   * any other branch is inserted under the next generated key.
   */
  function Store(t: BranchTable, b: Branch): (r: (BranchTable, Branch))
    ensures r.1.name == b.name && r.1.address == b.address
    ensures r.1.hotline == b.hotline && r.1.mapUrl == b.mapUrl
    ensures r.1.id.Some? && r.1.id.value in r.0.rows && r.0.rows[r.1.id.value] == r.1
    ensures b.id.Some? && b.id.value in t.rows ==> r.1 == b && r.0 == t.(rows := t.rows[b.id.value := b])
    ensures !(b.id.Some? && b.id.value in t.rows) ==>
              && r.1 == b.(id := Some(t.nextId))
              && r.0 == t.(rows := t.rows[t.nextId := r.1], nextId := t.nextId + 1)
  {
    if b.id.Some? && b.id.value in t.rows then (t.(rows := t.rows[b.id.value := b]), b)
    else
      var stored := b.(id := Some(t.nextId));
      (t.(rows := t.rows[t.nextId := stored], nextId := t.nextId + 1), stored)
  }

  /**
   * `saveBranch`: rejected when a branch with the same name exists and the branch being
   * saved has no id or a different one; otherwise stored.
   */
  function SaveBranch(t: BranchTable, b: Branch): (r: Result<(BranchTable, Branch), BranchError>)
    ensures |NameOwners(t, b.name)| > 1 ==> r == Failure(NonUniqueName)
    ensures |NameOwners(t, b.name)| <= 1 ==>
              (r == Failure(NameTaken) <==> exists k :: k in NameOwners(t, b.name) && b.id != Some(k))
    ensures r.Success? ==> r == Success(Store(t, b))
    ensures r.Success? <==>
              |NameOwners(t, b.name)| <= 1 && forall k :: k in NameOwners(t, b.name) ==> b.id == Some(k)
  {
    var owners := NameOwners(t, b.name);
    if |owners| > 1 then Failure(NonUniqueName)
    // the one branch found, if any, must be the one being saved
    else if exists k :: k in owners && (b.id.None? || b.id.value != k) then Failure(NameTaken)
    else Success(Store(t, b))
  }

  /** `deleteBranch`. */
  function DeleteBranch(t: BranchTable, id: int): (r: Result<BranchTable, BranchError>)
    ensures r.Failure? <==> id !in t.rows
    ensures r.Failure? ==> r.error == BranchNotFound
    ensures r.Success? ==> r.value.rows.Keys == t.rows.Keys - {id} && r.value.nextId == t.nextId
    ensures r.Success? ==> forall k :: k in r.value.rows ==> r.value.rows[k] == t.rows[k]
  {
    if id !in t.rows then Failure(BranchNotFound)
    else Success(t.(rows := t.rows - {id}))
  }

  // ---------------------------------------------------------------- lemmas

  /** Saving keeps branch names unique. */
  lemma SavePreservesNamesUnique(t: BranchTable, b: Branch)
    requires NamesUnique(t) && WellKeyed(t)
    ensures SaveBranch(t, b).Success? ==> NamesUnique(SaveBranch(t, b).value.0)
  {
    if SaveBranch(t, b).Success? {
      var owners := NameOwners(t, b.name);
      var (t', stored) := Store(t, b);
      var key := stored.id.value;
      assert forall k :: k in t.rows && k != key ==> k !in owners;
    }
  }

  /** Saving keeps every row under its own key, below the counter. */
  lemma SavePreservesWellKeyed(t: BranchTable, b: Branch)
    requires WellKeyed(t)
    ensures SaveBranch(t, b).Success? ==> WellKeyed(SaveBranch(t, b).value.0)
  {
  }

  /** Under unique names, a stored row's name belongs to that row alone. */
  lemma OnlyOwner(t: BranchTable, k: int)
    requires NamesUnique(t) && k in t.rows
    ensures NameOwners(t, t.rows[k].name) == {k}
  {
    var owners := NameOwners(t, t.rows[k].name);
    assert k in owners;
    forall j | j in owners
      ensures j == k
    {
      assert SameName(t, t.rows[j].name, t.rows[k].name);
    }
  }

  /**
   * A stored branch saved again under its own id, with its name or any variant of it the
   * collation equates, is accepted and replaces the row.
   */
  lemma ResaveOwnName(t: BranchTable, k: int, b: Branch)
    requires NamesUnique(t)
    requires k in t.rows && SameName(t, b.name, t.rows[k].name) && b.id == Some(k)
    ensures SaveBranch(t, b) == Success((t.(rows := t.rows[k := b]), b))
  {
    OnlyOwner(t, k);
    forall j | j in t.rows
      ensures j in NameOwners(t, b.name) <==> j in NameOwners(t, t.rows[k].name)
    {
      assert SameName(t, t.rows[j].name, b.name) <==> SameName(t, t.rows[j].name, t.rows[k].name);
    }
    assert NameOwners(t, b.name) == NameOwners(t, t.rows[k].name);
  }

  /** A new branch (no id) whose name collates equal to a stored one is rejected. */
  lemma NewBranchNameClash(t: BranchTable, k: int, b: Branch)
    requires NamesUnique(t)
    requires k in t.rows && SameName(t, b.name, t.rows[k].name) && b.id.None?
    ensures SaveBranch(t, b) == Failure(NameTaken)
  {
    OnlyOwner(t, k);
    forall j | j in t.rows
      ensures j in NameOwners(t, b.name) <==> j in NameOwners(t, t.rows[k].name)
    {
      assert SameName(t, t.rows[j].name, b.name) <==> SameName(t, t.rows[j].name, t.rows[k].name);
    }
    assert NameOwners(t, b.name) == NameOwners(t, t.rows[k].name);
  }

  /**
   * Under a case-insensitive collation, a new branch spelled in another case than a
   * stored one is a duplicate: "thanh khe" against a stored "Thanh Khe" is rejected.
   */
  lemma CaseVariantRejected(address: string)
    ensures var stored := Branch(Some(1), "Thanh Khe", address, None, None);
            var t := BranchTable(map[1 := stored], 2, JavaLang.LowerCase);
            SaveBranch(t, Branch(None, "thanh khe", address, None, None)) == Failure(NameTaken)
  {
    var stored := Branch(Some(1), "Thanh Khe", address, None, None);
    var t := BranchTable(map[1 := stored], 2, JavaLang.LowerCase);
    FoldedSpellings();
    NewBranchNameClash(t, 1, Branch(None, "thanh khe", address, None, None));
  }

  /** Both spellings of the example lower-case to the same string. */
  lemma FoldedSpellings()
    ensures JavaLang.LowerCase("Thanh Khe") == JavaLang.LowerCase("thanh khe") == "thanh khe"
  {
    assert JavaLang.LowerCase("he") == "he";
    assert JavaLang.LowerCase("Khe") == "khe";
    assert JavaLang.LowerCase("h Khe") == "h khe";
    assert JavaLang.LowerCase("anh Khe") == "anh khe";
    assert JavaLang.LowerCase("Thanh Khe") == "thanh khe";
    assert JavaLang.LowerCase("h khe") == "h khe";
    assert JavaLang.LowerCase("anh khe") == "anh khe";
    assert JavaLang.LowerCase("thanh khe") == "thanh khe";
  }

  /** Under exact comparison the same two spellings are distinct names, and the insert goes through. */
  lemma ExactCollationAdmitsVariant(address: string)
    ensures var stored := Branch(Some(1), "Thanh Khe", address, None, None);
            var t := BranchTable(map[1 := stored], 2, s => s);
            SaveBranch(t, Branch(None, "thanh khe", address, None, None)).Success?
  {
    var stored := Branch(Some(1), "Thanh Khe", address, None, None);
    var t := BranchTable(map[1 := stored], 2, s => s);
    assert "Thanh Khe"[0] != "thanh khe"[0];
    assert NameOwners(t, "thanh khe") == {};
  }

  /** Inserting a new branch and deleting the key it received restores the rows. */
  lemma InsertThenDelete(t: BranchTable, b: Branch)
    requires WellKeyed(t) && b.id.None?
    requires SaveBranch(t, b).Success?
    ensures var (t', stored) := SaveBranch(t, b).value;
            DeleteBranch(t', stored.id.value) == Success(t.(nextId := t.nextId + 1))
  {
    var (t', stored) := SaveBranch(t, b).value;
    assert t.nextId !in t.rows;
    assert t'.rows - {t.nextId} == t.rows;
  }

  /** Deleting keeps names unique and rows well keyed. */
  lemma DeletePreserves(t: BranchTable, id: int)
    requires NamesUnique(t) && WellKeyed(t)
    ensures DeleteBranch(t, id).Success? ==>
              NamesUnique(DeleteBranch(t, id).value) && WellKeyed(DeleteBranch(t, id).value)
  {
  }
}

=== FILE: cart.dfy ===
/**
 * The Cart entity: an optional owner and a set of items with id-based equality,
 * kept here as a map from each item's key (see `CartItems.Key`) to the item.
 * `addCartItem` and `removeCartItem` maintain the item's back-reference.
 */
module Carts {
  import opened Common
  import opened JavaLang
  import opened CartItems

  datatype Cart = Cart(
    oid: nat,
    cartId: Option<string>,
    ownerId: Option<string>,
    items: map<ItemKey, CartItem>)

  /** Every element is stored under its own key. */
  predicate KeyedByKey(c: Cart)
  {
    forall k :: k in c.items ==> Key(c.items[k]) == k
  }

  /** The reference an item keeps to this cart. */
  function RefOf(c: Cart): CartRef
  {
    CartRef(c.oid, c.cartId)
  }

  /** `new Cart()`: no key, no owner, an empty item set. */
  function NewCart(oid: nat): (c: Cart)
    ensures c.oid == oid && c.cartId.None? && c.ownerId.None?
    ensures |c.items| == 0 && KeyedByKey(c)
  {
    Cart(oid, None, None, map[])
  }

  /**
   * `addCartItem(item)`: `cartItems.add(item)` then `item.setCart(this)`.
   * The set keeps an element that is already equal to `item`; only when that element is
   * the very same object does the stored element see the new back-reference.
   * Returns the cart and the item after the call.
   */
  function AddCartItem(c: Cart, item: CartItem): (r: (Cart, CartItem))
    ensures r.1 == item.(cart := Some(RefOf(c)))
    ensures r.0.oid == c.oid && r.0.cartId == c.cartId && r.0.ownerId == c.ownerId
    ensures Key(item) in r.0.items
    ensures KeyedByKey(c) ==> Equals(r.0.items[Key(item)], item)
    ensures Key(item) !in c.items ==> r.0.items[Key(item)] == r.1
    ensures (Key(item) in c.items && c.items[Key(item)].oid != item.oid) ==> r.0.items == c.items
    ensures r.0.items.Keys == c.items.Keys + {Key(item)}
    ensures forall k :: k in c.items && k != Key(item) ==> r.0.items[k] == c.items[k]
    ensures KeyedByKey(c) ==> KeyedByKey(r.0)
  {
    var linked := item.(cart := Some(RefOf(c)));
    var k := Key(item);
    if k in c.items && c.items[k].oid != item.oid then (c, linked)
    else (c.(items := c.items[k := linked]), linked)
  }

  /** `removeCartItem(item)`: `cartItems.remove(item)` then `item.setCart(null)`. */
  function RemoveCartItem(c: Cart, item: CartItem): (r: (Cart, CartItem))
    ensures r.1 == item.(cart := None)
    ensures r.0.oid == c.oid && r.0.cartId == c.cartId && r.0.ownerId == c.ownerId
    ensures r.0.items.Keys == c.items.Keys - {Key(item)}
    ensures forall k :: k in r.0.items ==> r.0.items[k] == c.items[k]
    ensures Key(item) !in c.items ==> r.0.items == c.items
    ensures KeyedByKey(c) ==> KeyedByKey(r.0)
  {
    (c.(items := c.items - {Key(item)}), item.(cart := None))
  }

  /** `Cart.equals`: the same object, or the same non-null cart key. */
  predicate CartEquals(a: Cart, b: Cart)
  {
    a.oid == b.oid || (a.cartId.Some? && a.cartId == b.cartId)
  }

  /** `Cart.hashCode`: `Objects.hash(cartId)`, or 0 for a null key. */
  function CartHash(c: Cart): Int32
  {
    match c.cartId
    case Some(id) => ObjectsHash(id)
    case None => 0
  }

  /** Adding an item whose key is already present never grows the set. */
  lemma AddPresentKeepsSize(c: Cart, item: CartItem)
    requires Key(item) in c.items
    ensures |AddCartItem(c, item).0.items| == |c.items|
  {
    assert AddCartItem(c, item).0.items.Keys == c.items.Keys;
  }

  /** Adding a new item grows the set by exactly one. */
  lemma AddAbsentGrowsByOne(c: Cart, item: CartItem)
    requires Key(item) !in c.items
    ensures |AddCartItem(c, item).0.items| == |c.items| + 1
  {
    assert AddCartItem(c, item).0.items.Keys == c.items.Keys + {Key(item)};
  }

  /** Removing an item that was just added restores the item set. */
  lemma AddThenRemove(c: Cart, item: CartItem)
    requires Key(item) !in c.items
    ensures RemoveCartItem(AddCartItem(c, item).0, item).0.items == c.items
  {
    var added := AddCartItem(c, item).0;
    var removed := RemoveCartItem(added, item).0;
    assert removed.items.Keys == c.items.Keys;
  }

  /** Removing twice is the same as removing once. */
  lemma RemoveIdempotent(c: Cart, item: CartItem)
    ensures var once := RemoveCartItem(c, item).0;
            RemoveCartItem(once, item).0 == once
  {
  }

  /** Carts with the same non-null key are equal; equal carts hash equally. */
  lemma CartEqualsContract(a: Cart, b: Cart)
    requires a.oid == b.oid ==> a == b
    ensures a.cartId.Some? && a.cartId == b.cartId ==> CartEquals(a, b)
    ensures a.cartId.None? && a.oid != b.oid ==> !CartEquals(a, b)
    ensures CartEquals(a, b) ==> CartHash(a) == CartHash(b)
    ensures a.cartId.None? ==> CartHash(a) == 0
  {
  }
}

=== FILE: cart_item.dfy ===
/**
 * The CartItem entity: one product line of a cart, with the price captured when it was
 * first added. Equality and hashing look only at the primary key `cartItemId`; an item
 * whose key is still null is equal to itself alone.
 */
module CartItems {
  import opened Common
  import opened JavaLang

  /** The item's back-reference to its cart: the cart object's identity and key. */
  datatype CartRef = CartRef(oid: nat, cartId: Option<string>)

  /**
   * `oid` stands for the JVM object identity (`this == o`); `cart` is the back-reference
   * (null after removal); money is an exact integer (`BigDecimal` with no fraction).
   */
  datatype CartItem = CartItem(
    oid: nat,
    cartItemId: Option<string>,
    cart: Option<CartRef>,
    productId: string,
    quantity: Int32,
    priceAtAddition: int)

  /** The element a HashSet with these equals/hashCode methods identifies an item by. */
  datatype ItemKey = IdKey(id: string) | ObjectKey(oid: nat)

  function Key(item: CartItem): ItemKey
  {
    match item.cartItemId
    case Some(id) => IdKey(id)
    case None => ObjectKey(item.oid)
  }

  /** `CartItem.equals`: the same object, or the same non-null primary key. */
  predicate Equals(a: CartItem, b: CartItem)
  {
    a.oid == b.oid || (a.cartItemId.Some? && a.cartItemId == b.cartItemId)
  }

  /** `CartItem.hashCode`: `Objects.hash(cartItemId)`, or 0 for a null key. */
  function HashCode(item: CartItem): Int32
  {
    match item.cartItemId
    case Some(id) => ObjectsHash(id)
    case None => 0
  }

  /** Two values describe one heap: equal object identities carry equal state. */
  predicate SameHeap(a: CartItem, b: CartItem)
  {
    a.oid == b.oid ==> a == b
  }

  /** Equality is exactly equality of keys, so a map keyed by `Key` is the HashSet. */
  lemma EqualsIsSameKey(a: CartItem, b: CartItem)
    requires SameHeap(a, b)
    ensures Equals(a, b) <==> Key(a) == Key(b)
  {
  }

  /** Equal items hash equally, and a null key hashes to 0. */
  lemma HashRespectsEquals(a: CartItem, b: CartItem)
    requires SameHeap(a, b)
    ensures Equals(a, b) ==> HashCode(a) == HashCode(b)
    ensures a.cartItemId.None? ==> HashCode(a) == 0
  {
  }

  /** Items with the same non-null key are equal whatever their product, quantity or price. */
  lemma SameKeyEqual(a: CartItem, b: CartItem)
    requires a.cartItemId.Some? && a.cartItemId == b.cartItemId
    ensures Equals(a, b) && Equals(b, a)
  {
  }

  /** An item with a null key equals no other object. */
  lemma NullKeyOnlySelf(a: CartItem, b: CartItem)
    requires a.cartItemId.None? && a.oid != b.oid
    ensures !Equals(a, b)
  {
  }

  /** On items with non-null keys, equality is reflexive, symmetric and transitive. */
  lemma EqualsIsEquivalence(a: CartItem, b: CartItem, c: CartItem)
    requires a.cartItemId.Some? && b.cartItemId.Some? && c.cartItemId.Some?
    requires SameHeap(a, b) && SameHeap(b, c) && SameHeap(a, c)
    ensures Equals(a, a)
    ensures Equals(a, b) <==> Equals(b, a)
    ensures Equals(a, b) && Equals(b, c) ==> Equals(a, c)
  {
  }
}

=== FILE: cart_service.dfy ===
/**
 * CartService: loads a cart and a product, validates a mutation against the product's
 * stock, applies it to the cart aggregate and projects the result to a view.
 *
 * The database is a pair of maps (the cart and product repositories); each stored cart
 * owns its items. Every operation returns the new database or the exception it throws;
 * because each Java method is one transaction, a thrown exception leaves the database
 * as it was, which is why a failure carries no state.
 */
module CartService {
  import opened Common
  import opened JavaLang
  import opened CartItems
  import opened Carts
  import opened Products
  import IdGenerator

  datatype Db = Db(carts: map<string, Cart>, products: map<string, Product>)

  datatype CartError =
    | CartNotFound
    | ProductNotFound
    | InvalidQuantity      // quantity <= 0 or above stock on the first check
    | InsufficientStock    // merged or updated quantity above stock
    | NonUniqueItem        // the repository query found several lines for one product
    | ItemNotFound
    | ItemNotInCart
    | NoOwner              // the projection dereferences the cart's user

  // ------------------------------------------------------------ invariants

  /** Every item id stored in the cart_items table, whichever cart holds it. */
  function AllItemIds(db: Db): set<string>
  {
    set cid, k | cid in db.carts && k in db.carts[cid].items && k.IdKey? :: k.id
  }

  /** The lines of a cart that hold a given product. */
  function ProductLines(c: Cart, productId: string): set<ItemKey>
  {
    set k | k in c.items && c.items[k].productId == productId
  }

  /** At most one line per product. */
  predicate UniqueProducts(c: Cart)
  {
    forall k1, k2 :: k1 in c.items && k2 in c.items && c.items[k1].productId == c.items[k2].productId ==> k1 == k2
  }

  /** A stored line: keyed by its non-null id, pointing back at its cart, quantity positive. */
  predicate StoredLine(cid: string, k: ItemKey, item: CartItem)
  {
    && k.IdKey?
    && Key(item) == k
    && item.cart.Some? && item.cart.value.cartId == Some(cid)
    && item.quantity >= 1
  }

  predicate StoredCart(cid: string, c: Cart)
  {
    && c.cartId == Some(cid)
    && UniqueProducts(c)
    && forall k :: k in c.items ==> StoredLine(cid, k, c.items[k])
  }

  /** The integrity the tables keep: primary keys, back-references, one line per product. */
  predicate Consistent(db: Db)
  {
    && (forall cid :: cid in db.carts ==> StoredCart(cid, db.carts[cid]))
    && (forall c1, c2, k :: c1 in db.carts && c2 in db.carts && k in db.carts[c1].items && k in db.carts[c2].items ==> c1 == c2)
  }

  // ------------------------------------------------------------ projection

  function Subtotal(item: CartItem): int
  {
    item.priceAtAddition * item.quantity
  }

  /** The cart total as a reference definition, independent of any iteration order. */
  ghost function Total(m: map<ItemKey, CartItem>): int
    decreases |m|
  {
    if m == map[] then 0
    else
      var k :| k in m;
      Subtotal(m[k]) + Total(m - {k})
  }

  lemma {:induction false} TotalRemove(m: map<ItemKey, CartItem>, k: ItemKey)
    requires k in m
    ensures Total(m) == Subtotal(m[k]) + Total(m - {k})
    decreases |m|
  {
    var j :| j in m && Total(m) == Subtotal(m[j]) + Total(m - {j});
    if j != k {
      TotalRemove(m - {j}, k);
      TotalRemove(m - {k}, j);
      assert (m - {j}) - {k} == (m - {k}) - {j};
    }
  }

  datatype LineDto = LineDto(
    cartItemId: Option<string>,
    productId: string,
    productName: string,
    imageUrl: Option<string>,
    unitPrice: int,
    quantity: int,
    subtotal: int)

  datatype CartDto = CartDto(
    cartId: Option<string>,
    userId: string,
    lines: seq<LineDto>,
    totalItems: int,
    totalAmount: int)

  /**
   * `mapToCartItemDto` for an item and the product row loaded by its key: the reported
   * product id is that key, and an empty image URL is reported as null.
   */
  function LineOf(item: CartItem, p: Product): LineDto
  {
    var image := if p.imageUrl.Some? && |p.imageUrl.value| > 0 then p.imageUrl else None;
    LineDto(item.cartItemId, item.productId, p.name, image, item.priceAtAddition, item.quantity, Subtotal(item))
  }

  predicate ProductsPresent(c: Cart, products: map<string, Product>)
  {
    forall k :: k in c.items ==> c.items[k].productId in products
  }

  /**
   * Why `mapToCartDto` would throw: a line whose product row is gone (checked while the
   * lines are mapped), then a cart without a user (`cart.getUser().getUserId()`).
   */
  function ProjectionError(c: Cart, products: map<string, Product>): Option<CartError>
  {
    if !ProductsPresent(c, products) then Some(ProductNotFound)
    else if c.ownerId.None? then Some(NoOwner)
    else None
  }

  function LineAt(c: Cart, products: map<string, Product>, k: ItemKey): LineDto
    requires k in c.items && c.items[k].productId in products
  {
    LineOf(c.items[k], products[c.items[k].productId])
  }

  /** `order` lists every key of `m` exactly once. */
  predicate Enumerates(order: seq<ItemKey>, m: map<ItemKey, CartItem>)
  {
    && |order| == |m|
    && (forall i :: 0 <= i < |order| ==> order[i] in m)
    && (forall k :: k in m ==> k in order)
    && (forall i, j :: 0 <= i < j < |order| ==> order[i] != order[j])
  }

  /** A walk over a finite set in an unspecified order, as a HashSet iterator does. */
  method Enumerate(m: map<ItemKey, CartItem>) returns (order: seq<ItemKey>)
    ensures Enumerates(order, m)
  {
    var rest := m.Keys;
    order := [];
    while rest != {}
      invariant rest <= m.Keys
      invariant forall k :: k in order <==> k in m && k !in rest
      invariant forall i, j :: 0 <= i < j < |order| ==> order[i] != order[j]
      invariant |order| + |rest| == |m|
      decreases rest
    {
      var k :| k in rest;
      order := order + [k];
      rest := rest - {k};
    }
  }

  /** The sum of the subtotals of the listed lines. */
  function SumOver(m: map<ItemKey, CartItem>, order: seq<ItemKey>): int
    requires forall i :: 0 <= i < |order| ==> order[i] in m
  {
    if |order| == 0 then 0 else Subtotal(m[order[0]]) + SumOver(m, order[1..])
  }

  lemma {:induction false} SumOverUnaffected(m: map<ItemKey, CartItem>, k: ItemKey, order: seq<ItemKey>)
    requires forall i :: 0 <= i < |order| ==> order[i] in m && order[i] != k
    ensures SumOver(m, order) == SumOver(m - {k}, order)
  {
    if |order| > 0 {
      SumOverUnaffected(m, k, order[1..]);
    }
  }

  /** Summing in any enumeration order gives the order-free total. */
  lemma {:induction false} SumOverAnyOrder(m: map<ItemKey, CartItem>, order: seq<ItemKey>)
    requires Enumerates(order, m)
    ensures SumOver(m, order) == Total(m)
    decreases |order|
  {
    if |order| == 0 {
      assert m.Keys == {} by {
        assert |m.Keys| == 0;
      }
    } else {
      var k := order[0];
      var rest := order[1..];
      var m' := m - {k};
      assert forall i :: 0 <= i < |rest| ==> rest[i] == order[i + 1];
      SumOverUnaffected(m, k, rest);
      SumOverAnyOrder(m', rest);
      TotalRemove(m, k);
    }
  }

  function LinesOf(c: Cart, products: map<string, Product>, order: seq<ItemKey>): (lines: seq<LineDto>)
    requires ProductsPresent(c, products)
    requires forall i :: 0 <= i < |order| ==> order[i] in c.items
    ensures |lines| == |order|
    ensures forall i :: 0 <= i < |order| ==> lines[i] == LineAt(c, products, order[i])
  {
    if |order| == 0 then [] else [LineAt(c, products, order[0])] + LinesOf(c, products, order[1..])
  }

  function SumLines(lines: seq<LineDto>): int
  {
    if |lines| == 0 then 0 else lines[0].subtotal + SumLines(lines[1..])
  }

  lemma {:induction false} SumLinesIsSumOver(c: Cart, products: map<string, Product>, order: seq<ItemKey>)
    requires ProductsPresent(c, products)
    requires forall i :: 0 <= i < |order| ==> order[i] in c.items
    ensures SumLines(LinesOf(c, products, order)) == SumOver(c.items, order)
  {
    if |order| > 0 {
      SumLinesIsSumOver(c, products, order[1..]);
    }
  }

  /**
   * `mapToCartDto`: one line per item, visited in the set's (unspecified) order,
   * `totalItems` the number of lines (not the sum of quantities), `totalAmount` the sum
   * of the subtotals.
   */
  method Project(c: Cart, products: map<string, Product>) returns (r: Result<CartDto, CartError>)
    ensures r.Failure? <==> ProjectionError(c, products).Some?
    ensures r.Failure? ==> r.error == ProjectionError(c, products).value
    ensures r.Success? ==> ProductsPresent(c, products) && c.ownerId.Some?
    ensures r.Success? ==> Describes(r.value, c, products)
  {
    var err := ProjectionError(c, products);
    if err.Some? {
      return Failure(err.value);
    }
    var dto := ProjectOwned(c, products);
    r := Success(dto);
  }

  /**
   * What a projection of an owned cart whose products all exist reports: its lines are the
   * items' lines in some enumeration of the items.
   */
  ghost predicate Describes(dto: CartDto, c: Cart, products: map<string, Product>)
    requires ProductsPresent(c, products)
  {
    && c.ownerId == Some(dto.userId) && dto.cartId == c.cartId
    && dto.totalItems == |c.items| == |dto.lines|
    && dto.totalAmount == Total(c.items)
    && exists order :: Enumerates(order, c.items) && dto.lines == LinesOf(c, products, order)
  }

  method ProjectOwned(c: Cart, products: map<string, Product>) returns (dto: CartDto)
    requires ProductsPresent(c, products) && c.ownerId.Some?
    ensures Describes(dto, c, products)
  {
    var order := Enumerate(c.items);
    var lines := LinesOf(c, products, order);
    var total := SumLines(lines);
    SumLinesIsSumOver(c, products, order);
    SumOverAnyOrder(c.items, order);
    dto := CartDto(c.cartId, c.ownerId.value, lines, |lines|, total);
  }

  lemma LineInLines(c: Cart, products: map<string, Product>, order: seq<ItemKey>, i: int)
    requires ProductsPresent(c, products)
    requires forall j :: 0 <= j < |order| ==> order[j] in c.items
    requires 0 <= i < |order|
    ensures exists k :: k in c.items && LinesOf(c, products, order)[i] == LineAt(c, products, k)
  {
    assert LinesOf(c, products, order)[i] == LineAt(c, products, order[i]);
  }

  lemma ItemInLines(c: Cart, products: map<string, Product>, order: seq<ItemKey>, k: ItemKey)
    requires ProductsPresent(c, products)
    requires Enumerates(order, c.items)
    requires k in c.items
    ensures exists i :: 0 <= i < |order| && LinesOf(c, products, order)[i] == LineAt(c, products, k)
  {
    var i :| 0 <= i < |order| && order[i] == k;
    assert LinesOf(c, products, order)[i] == LineAt(c, products, order[i]);
  }

  /** Every line of a projection describes one of the cart's items. */
  lemma ProjectionLinesAreItems(dto: CartDto, c: Cart, products: map<string, Product>)
    requires ProductsPresent(c, products)
    requires Describes(dto, c, products)
    ensures forall i :: 0 <= i < |dto.lines| ==> exists k :: k in c.items && dto.lines[i] == LineAt(c, products, k)
  {
    var order :| Enumerates(order, c.items) && dto.lines == LinesOf(c, products, order);
    forall i | 0 <= i < |dto.lines|
      ensures exists k :: k in c.items && dto.lines[i] == LineAt(c, products, k)
    {
      LineInLines(c, products, order, i);
    }
  }

  /** Every item of the cart has its line in a projection. */
  lemma ProjectionItemsHaveLines(dto: CartDto, c: Cart, products: map<string, Product>)
    requires ProductsPresent(c, products)
    requires Describes(dto, c, products)
    ensures forall k :: k in c.items ==> exists i :: 0 <= i < |dto.lines| && dto.lines[i] == LineAt(c, products, k)
  {
    var order :| Enumerates(order, c.items) && dto.lines == LinesOf(c, products, order);
    forall k | k in c.items
      ensures exists i :: 0 <= i < |dto.lines| && dto.lines[i] == LineAt(c, products, k)
    {
      ItemInLines(c, products, order, k);
    }
  }

  /** `getCart`. */
  method GetCart(db: Db, cartId: string) returns (r: Result<CartDto, CartError>)
    ensures cartId !in db.carts ==> r == Failure(CartNotFound)
    ensures cartId in db.carts ==>
              (r.Failure? <==> ProjectionError(db.carts[cartId], db.products).Some?)
    ensures r.Success? ==> ProductsPresent(db.carts[cartId], db.products)
                           && Describes(r.value, db.carts[cartId], db.products)
  {
    if cartId !in db.carts {
      return Failure(CartNotFound);
    }
    r := Project(db.carts[cartId], db.products);
  }

  // ------------------------------------------------------------- mutations

  /** Persist the mutated cart, unless the projection that follows would throw. */
  function Commit(db: Db, cartId: string, c: Cart): (r: Result<Db, CartError>)
    ensures r.Failure? <==> ProjectionError(c, db.products).Some?
    ensures r.Success? ==> r.value == db.(carts := db.carts[cartId := c])
  {
    match ProjectionError(c, db.products)
    case Some(e) => Failure(e)
    case None => Success(db.(carts := db.carts[cartId := c]))
  }

  /**
   * Adding `quantity` to a line that already holds `item.quantity` (Java `int`
   * addition, computed here without overflow): rejected above stock, and only the
   * quantity changes, never the price snapshot.
   */
  function MergeLine(item: CartItem, quantity: Int32, stock: Int32): (r: Result<CartItem, CartError>)
    requires 0 < quantity
    ensures r.Success? <==> item.quantity + quantity <= stock
    ensures r.Failure? ==> r.error == InsufficientStock
    ensures r.Success? ==> (r.value.quantity == item.quantity + quantity
                            && r.value.(quantity := item.quantity) == item)
  {
    var merged := item.quantity + quantity;
    if merged > stock then Failure(InsufficientStock) else Success(item.(quantity := merged))
  }

  /**
   * The same step exactly as written: the sum wraps around at 2^31, so the stock check
   * can pass on a negative total.
   */
  function MergeLineAsWritten(item: CartItem, quantity: Int32, stock: Int32): (r: Result<CartItem, CartError>)
    ensures var merged := Wrap32(item.quantity + quantity);
            (r.Success? <==> merged <= stock)
            && (r.Success? ==> r.value == item.(quantity := merged))
  {
    var merged := Wrap32(item.quantity + quantity);
    if merged > stock then Failure(InsufficientStock) else Success(item.(quantity := merged))
  }

  /** The line a first add creates: fresh generated id, requested quantity, current price. */
  function NewLine(db: Db, cart: Cart, p: Product, quantity: Int32): (item: CartItem)
    ensures item.cartItemId.Some? && item.cartItemId.value !in AllItemIds(db)
    ensures item.productId == p.productId && item.quantity == quantity
    ensures item.priceAtAddition == p.price
  {
    var id := IdGenerator.CartItemId(AllItemIds(db));
    CartItem(0, Some(id), Some(RefOf(cart)), p.productId, quantity, p.price)
  }

  /**
   * The cart after `addItemToCart` found the product in stock: the product's line grows
   * when the cart has one, otherwise a new line joins the cart.
   */
  function PlaceLine(db: Db, cartId: string, p: Product, quantity: Int32): (r: Result<Cart, CartError>)
    requires cartId in db.carts
    requires 0 < quantity <= p.stockQuantity
    ensures var cart := db.carts[cartId];
            r.Success? ==> r.value.oid == cart.oid && r.value.cartId == cart.cartId && r.value.ownerId == cart.ownerId
    ensures r.Success? ==> |ProductLines(r.value, p.productId)| == 1
    ensures |ProductLines(db.carts[cartId], p.productId)| > 1 ==> r == Failure(NonUniqueItem)
    ensures var cart := db.carts[cartId];
            var item := NewLine(db, cart, p, quantity);
            |ProductLines(cart, p.productId)| == 0 ==>
              && Key(item) !in cart.items
              && r == Success(cart.(items := cart.items[Key(item) := item]))
  {
    var cart := db.carts[cartId];
    var same := ProductLines(cart, p.productId);
    if |same| > 1 then Failure(NonUniqueItem)
    else if |same| == 1 then
      SingletonUnique(same);
      var k :| k in same;
      match MergeLine(cart.items[k], quantity, p.stockQuantity)
      case Failure(e) => Failure(e)
      case Success(item) =>
        var c := cart.(items := cart.items[k := item]);
        assert forall j :: j in c.items && c.items[j].productId == p.productId ==> j in same;
        assert ProductLines(c, p.productId) == {k};
        Success(c)
    else
      var item := NewLine(db, cart, p, quantity);
      FreshLineKey(db, cartId, item);
      var c := AddCartItem(cart, item).0;
      assert forall j :: j in c.items && j != Key(item) ==> j in cart.items && c.items[j] == cart.items[j];
      assert ProductLines(c, p.productId) == {Key(item)};
      Success(c)
  }

  /** The merge branch of `PlaceLine`: the one line of the product grows, or the add fails. */
  lemma PlaceLineMerges(db: Db, cartId: string, p: Product, quantity: Int32, k: ItemKey)
    requires cartId in db.carts
    requires 0 < quantity <= p.stockQuantity
    requires ProductLines(db.carts[cartId], p.productId) == {k}
    ensures var cart := db.carts[cartId];
            var r := PlaceLine(db, cartId, p, quantity);
            && (r.Success? <==> cart.items[k].quantity + quantity <= p.stockQuantity)
            && (r.Failure? ==> r.error == InsufficientStock)
            && (r.Success? ==> r.value.items == cart.items[k := cart.items[k].(quantity := cart.items[k].quantity + quantity)])
  {
  }

  /** A generated line id is not the key of any line of any stored cart. */
  lemma FreshLineKey(db: Db, cartId: string, item: CartItem)
    requires cartId in db.carts
    requires item.cartItemId.Some? && item.cartItemId.value !in AllItemIds(db)
    ensures Key(item) !in db.carts[cartId].items
  {
    assert forall k :: k in db.carts[cartId].items && k.IdKey? ==> k.id in AllItemIds(db);
  }

  /** `addItemToCart`. */
  function AddItemToCart(db: Db, cartId: string, productId: string, quantity: Int32): (r: Result<Db, CartError>)
    ensures cartId !in db.carts ==> r == Failure(CartNotFound)
    ensures cartId in db.carts && productId !in db.products ==> r == Failure(ProductNotFound)
    ensures (cartId in db.carts && productId in db.products
              && (quantity <= 0 || quantity > db.products[productId].stockQuantity))
              ==> r == Failure(InvalidQuantity)
    ensures r.Success? ==> cartId in db.carts && db.carts[cartId].ownerId.Some?
    ensures r.Success? ==> r.value.products == db.products && r.value.carts.Keys == db.carts.Keys
    ensures r.Success? ==> forall c :: c in db.carts && c != cartId ==> r.value.carts[c] == db.carts[c]
    ensures r.Success? ==> |ProductLines(r.value.carts[cartId], productId)| == 1
  {
    if cartId !in db.carts then Failure(CartNotFound)
    else if productId !in db.products then Failure(ProductNotFound)
    else
      // the entity `findById(productId)` loads carries that key
      var p := db.products[productId].(productId := productId);
      if quantity <= 0 || quantity > p.stockQuantity then Failure(InvalidQuantity)
      else
        match PlaceLine(db, cartId, p, quantity)
        case Failure(e) => Failure(e)
        case Success(c) => Commit(db, cartId, c)
  }

  /**
   * Where `cartItemRepository.findById` finds the item relative to the requested cart.
   * The entity it loads carries its primary key in `cartItemId`.
   */
  function LocateItem(db: Db, cartId: string, itemId: string): (r: Result<CartItem, CartError>)
    requires cartId in db.carts
    ensures r.Success? <==> IdKey(itemId) in db.carts[cartId].items
    ensures r.Success? ==> r.value == db.carts[cartId].items[IdKey(itemId)].(cartItemId := Some(itemId))
    ensures r.Failure? ==> (r.error == ItemNotInCart <==>
              exists c :: c in db.carts && IdKey(itemId) in db.carts[c].items)
    ensures r.Failure? ==> r.error in {ItemNotInCart, ItemNotFound}
  {
    var k := IdKey(itemId);
    if k in db.carts[cartId].items then Success(db.carts[cartId].items[k].(cartItemId := Some(itemId)))
    else if exists c :: c in db.carts && k in db.carts[c].items then Failure(ItemNotInCart)
    else Failure(ItemNotFound)
  }

  /** `updateCartItemQuantity`: zero or less deletes the line, above stock is rejected. */
  function UpdateCartItemQuantity(db: Db, cartId: string, itemId: string, quantity: Int32): (r: Result<Db, CartError>)
    ensures cartId !in db.carts ==> r == Failure(CartNotFound)
    ensures r.Success? ==> cartId in db.carts && IdKey(itemId) in db.carts[cartId].items
    ensures r.Success? ==> r.value.products == db.products && r.value.carts.Keys == db.carts.Keys
    ensures r.Success? ==> forall c :: c in db.carts && c != cartId ==> r.value.carts[c] == db.carts[c]
    ensures r.Success? && quantity <= 0 ==>
              r.value.carts[cartId].items == db.carts[cartId].items - {IdKey(itemId)}
    ensures r.Success? && quantity > 0 ==>
              var old_ := db.carts[cartId].items;
              var new_ := r.value.carts[cartId].items;
              && new_.Keys == old_.Keys
              && new_[IdKey(itemId)] == old_[IdKey(itemId)].(quantity := quantity)
              && (forall k :: k in old_ && k != IdKey(itemId) ==> new_[k] == old_[k])
              && old_[IdKey(itemId)].productId in db.products
              && quantity <= db.products[old_[IdKey(itemId)].productId].stockQuantity
    ensures cartId in db.carts && IdKey(itemId) !in db.carts[cartId].items ==>
              r.Failure? && r.error in {ItemNotInCart, ItemNotFound}
    ensures cartId in db.carts && IdKey(itemId) in db.carts[cartId].items ==>
              var cart := db.carts[cartId];
              var k := IdKey(itemId);
              var line := cart.items[k];
              (r.Success? <==>
                 if quantity <= 0 then ProjectionError(cart.(items := cart.items - {k}), db.products).None?
                 else
                   && line.productId in db.products
                   && quantity <= db.products[line.productId].stockQuantity
                   && ProjectionError(cart.(items := cart.items[k := line.(quantity := quantity)]), db.products).None?)
    ensures cartId in db.carts && IdKey(itemId) in db.carts[cartId].items && quantity > 0 ==>
              var line := db.carts[cartId].items[IdKey(itemId)];
              line.productId in db.products && quantity > db.products[line.productId].stockQuantity ==>
                r == Failure(InsufficientStock)
    ensures r.Failure? ==> r.error in {CartNotFound, ItemNotInCart, ItemNotFound, ProductNotFound, InsufficientStock, NoOwner}
  {
    if cartId !in db.carts then Failure(CartNotFound)
    else
      var cart := db.carts[cartId];
      match LocateItem(db, cartId, itemId)
      case Failure(e) => Failure(e)
      case Success(item) =>
        if quantity <= 0 then
          Commit(db, cartId, Carts.RemoveCartItem(cart, item).0)
        else if item.productId !in db.products then Failure(ProductNotFound)
        else if quantity > db.products[item.productId].stockQuantity then Failure(InsufficientStock)
        else
          var k := IdKey(itemId);
          Commit(db, cartId, cart.(items := cart.items[k := cart.items[k].(quantity := quantity)]))
  }

  /** `removeCartItem`: only a line of this cart can be removed. */
  function RemoveItem(db: Db, cartId: string, itemId: string): (r: Result<Db, CartError>)
    ensures cartId !in db.carts ==> r == Failure(CartNotFound)
    ensures cartId in db.carts && IdKey(itemId) !in db.carts[cartId].items ==>
              r.Failure? && r.error in {ItemNotInCart, ItemNotFound}
    ensures cartId in db.carts && IdKey(itemId) in db.carts[cartId].items ==>
              var cart := db.carts[cartId];
              (r.Success? <==> ProjectionError(cart.(items := cart.items - {IdKey(itemId)}), db.products).None?)
    ensures r.Failure? ==> r.error in {CartNotFound, ItemNotInCart, ItemNotFound, ProductNotFound, NoOwner}
    ensures r.Success? ==> r.value.products == db.products && r.value.carts.Keys == db.carts.Keys
    ensures r.Success? ==> forall c :: c in db.carts && c != cartId ==> r.value.carts[c] == db.carts[c]
    ensures r.Success? ==> r.value.carts[cartId].items == db.carts[cartId].items - {IdKey(itemId)}
    ensures r.Success? ==> |r.value.carts[cartId].items| == |db.carts[cartId].items| - 1
  {
    if cartId !in db.carts then Failure(CartNotFound)
    else
      match LocateItem(db, cartId, itemId)
      case Failure(e) => Failure(e)
      case Success(item) =>
        Commit(db, cartId, Carts.RemoveCartItem(db.carts[cartId], item).0)
  }

  /** `clearCart`: empties the item set; no projection follows, so guest carts are fine. */
  function ClearCart(db: Db, cartId: string): (r: Result<Db, CartError>)
    ensures r.Failure? <==> cartId !in db.carts
    ensures r.Success? ==> r.value.carts.Keys == db.carts.Keys && r.value.products == db.products
    ensures r.Success? ==> |r.value.carts[cartId].items| == 0
    ensures r.Success? ==> r.value.carts[cartId].(items := db.carts[cartId].items) == db.carts[cartId]
    ensures r.Success? ==> forall c :: c in db.carts && c != cartId ==> r.value.carts[c] == db.carts[c]
  {
    if cartId !in db.carts then Failure(CartNotFound)
    else Success(db.(carts := db.carts[cartId := db.carts[cartId].(items := map[])]))
  }

  /**
   * `createGuestCart`: a new cart under a fresh generated id and without a user is saved
   * and then projected. The projection dereferences the missing user, so the call always
   * throws and its transaction leaves no guest cart behind.
   */
  method CreateGuestCart(db: Db) returns (r: Result<(Db, CartDto), CartError>)
    ensures r == Failure(NoOwner)
  {
    var cid := IdGenerator.CartId(db.carts.Keys);
    var cart := NewCart(0).(cartId := Some(cid));
    var saved := db.(carts := db.carts[cid := cart]);
    var view := Project(cart, saved.products);
    match view
    case Failure(e) => r := Failure(e);
    case Success(dto) => r := Success((saved, dto));
  }

  // ---------------------------------------------------------------- lemmas

  /**
   * A product not yet in the cart gets one new line under a fresh key, holding the
   * requested quantity at the product's current price; the other lines stay as they were.
   */
  lemma AddFirstLine(db: Db, cartId: string, productId: string, quantity: Int32)
    requires cartId in db.carts && productId in db.products
    requires 0 < quantity <= db.products[productId].stockQuantity
    requires ProductLines(db.carts[cartId], productId) == {}
    requires ProjectionError(db.carts[cartId], db.products).None?
    ensures var r := AddItemToCart(db, cartId, productId, quantity);
            var before := db.carts[cartId].items;
            && r.Success?
            && var after := r.value.carts[cartId].items;
               exists k :: k !in before && after.Keys == before.Keys + {k}
                 && after[k].productId == productId
                 && after[k].quantity == quantity
                 && after[k].priceAtAddition == db.products[productId].price
                 && after[k].cartItemId == Some(k.id)
                 && (forall j :: j in before ==> after[j] == before[j])
                 && Total(after) == Total(before) + db.products[productId].price * quantity
  {
    var p := db.products[productId].(productId := productId);
    var cart := db.carts[cartId];
    var item := NewLine(db, cart, p, quantity);
    var after := cart.items[Key(item) := item];
    assert ProductsPresent(cart.(items := after), db.products);
    TotalRemove(after, Key(item));
    assert after - {Key(item)} == cart.items;
  }

  /**
   * A product already in the cart: its line grows by the requested quantity when the sum
   * stays within stock, keeping its price snapshot; otherwise the add fails.
   */
  lemma AddMergesLine(db: Db, cartId: string, productId: string, quantity: Int32, k: ItemKey)
    requires cartId in db.carts && productId in db.products
    requires UniqueProducts(db.carts[cartId])
    requires k in db.carts[cartId].items && db.carts[cartId].items[k].productId == productId
    requires 0 < quantity <= db.products[productId].stockQuantity
    ensures var r := AddItemToCart(db, cartId, productId, quantity);
            var line := db.carts[cartId].items[k];
            && (line.quantity + quantity > db.products[productId].stockQuantity ==> r == Failure(InsufficientStock))
            && (r.Success? ==>
                  var after := r.value.carts[cartId].items;
                  && after == db.carts[cartId].items[k := line.(quantity := line.quantity + quantity)]
                  && after[k].priceAtAddition == line.priceAtAddition
                  && Total(after) == Total(db.carts[cartId].items) + line.priceAtAddition * quantity)
  {
    var cart := db.carts[cartId];
    assert ProductLines(cart, productId) == {k};
    var p := db.products[productId].(productId := productId);
    PlaceLineMerges(db, cartId, p, quantity, k);
    var line := cart.items[k];
    if line.quantity + quantity <= p.stockQuantity {
      MergedTotal(cart.items, k, line.quantity + quantity);
    }
  }

  /**
   * Adding a product the cart already holds succeeds exactly when the merged quantity is
   * within stock and the cart can be projected.
   */
  lemma AddMergeSucceeds(db: Db, cartId: string, productId: string, quantity: Int32, k: ItemKey)
    requires cartId in db.carts && productId in db.products
    requires UniqueProducts(db.carts[cartId])
    requires k in db.carts[cartId].items && db.carts[cartId].items[k].productId == productId
    requires 0 < quantity <= db.products[productId].stockQuantity
    ensures var line := db.carts[cartId].items[k];
            AddItemToCart(db, cartId, productId, quantity).Success?
            <==> line.quantity + quantity <= db.products[productId].stockQuantity
                 && ProjectionError(db.carts[cartId], db.products).None?
  {
    var cart := db.carts[cartId];
    assert ProductLines(cart, productId) == {k};
    var p := db.products[productId].(productId := productId);
    PlaceLineMerges(db, cartId, p, quantity, k);
    var line := cart.items[k];
    if line.quantity + quantity <= p.stockQuantity {
      var merged := cart.(items := cart.items[k := line.(quantity := line.quantity + quantity)]);
      assert PlaceLine(db, cartId, p, quantity) == Success(merged);
      assert ProjectionError(merged, db.products) == ProjectionError(cart, db.products) by {
        assert merged.items.Keys == cart.items.Keys;
        assert forall j :: j in merged.items ==> merged.items[j].productId == cart.items[j].productId;
      }
    }
  }

  /** Raising one line's quantity raises the total by its price times the increase. */
  lemma MergedTotal(m: map<ItemKey, CartItem>, k: ItemKey, quantity: Int32)
    requires k in m
    ensures Total(m[k := m[k].(quantity := quantity)])
            == Total(m) + m[k].priceAtAddition * (quantity - m[k].quantity)
  {
    var line := m[k];
    TotalUpdate(m, k, line.(quantity := quantity));
    assert line.priceAtAddition * quantity
        == line.priceAtAddition * line.quantity + line.priceAtAddition * (quantity - line.quantity);
  }

  /** Replacing one line changes the total by the difference of the two subtotals. */
  lemma TotalUpdate(m: map<ItemKey, CartItem>, k: ItemKey, v: CartItem)
    requires k in m
    ensures Total(m[k := v]) == Total(m) - Subtotal(m[k]) + Subtotal(v)
  {
    TotalRemove(m[k := v], k);
    TotalRemove(m, k);
    assert m[k := v] - {k} == m - {k};
  }

  lemma StoredCartAfterNewLine(db: Db, cartId: string, p: Product, quantity: Int32)
    requires Consistent(db) && cartId in db.carts
    requires 0 < quantity
    requires ProductLines(db.carts[cartId], p.productId) == {}
    ensures var cart := db.carts[cartId];
            var item := NewLine(db, cart, p, quantity);
            StoredCart(cartId, cart.(items := cart.items[Key(item) := item]))
  {
    var cart := db.carts[cartId];
    var item := NewLine(db, cart, p, quantity);
    var c := cart.(items := cart.items[Key(item) := item]);
    FreshLineKey(db, cartId, item);
    assert forall j :: j in cart.items ==> j !in ProductLines(cart, p.productId);
    forall k1, k2 | k1 in c.items && k2 in c.items && c.items[k1].productId == c.items[k2].productId
      ensures k1 == k2
    {
      if k1 != Key(item) && k2 != Key(item) {
        assert cart.items[k1].productId == cart.items[k2].productId;
      }
    }
  }

  /** Storing a well-formed cart whose lines no other cart holds keeps the database consistent. */
  lemma ReplaceCartKeepsConsistent(db: Db, cartId: string, c: Cart)
    requires Consistent(db) && cartId in db.carts
    requires StoredCart(cartId, c)
    requires forall k, other :: k in c.items && other in db.carts && other != cartId ==> k !in db.carts[other].items
    ensures Consistent(db.(carts := db.carts[cartId := c]))
  {
  }

  /** The cart `PlaceLine` builds is well formed, and its lines belong to no other cart. */
  lemma PlacedCartStored(db: Db, cartId: string, p: Product, quantity: Int32)
    requires Consistent(db) && cartId in db.carts
    requires 0 < quantity <= p.stockQuantity
    requires PlaceLine(db, cartId, p, quantity).Success?
    ensures var c := PlaceLine(db, cartId, p, quantity).value;
            && StoredCart(cartId, c)
            && forall k, other :: k in c.items && other in db.carts && other != cartId ==> k !in db.carts[other].items
  {
    var cart := db.carts[cartId];
    var c := PlaceLine(db, cartId, p, quantity).value;
    var same := ProductLines(cart, p.productId);
    if |same| == 1 {
      var k :| k in same;
      assert c.items == cart.items[k := cart.items[k].(quantity := cart.items[k].quantity + quantity)];
      assert StoredCart(cartId, c);
    } else {
      var item := NewLine(db, cart, p, quantity);
      StoredCartAfterNewLine(db, cartId, p, quantity);
      assert forall other :: other in db.carts ==> Key(item) !in db.carts[other].items by {
        assert forall other, j :: other in db.carts && j in db.carts[other].items && j.IdKey? ==> j.id in AllItemIds(db);
      }
    }
  }

  /** Adding keeps keys, back-references, positive quantities and one line per product. */
  lemma AddPreservesConsistent(db: Db, cartId: string, productId: string, quantity: Int32)
    requires Consistent(db)
    ensures var r := AddItemToCart(db, cartId, productId, quantity);
            r.Success? ==> Consistent(r.value)
  {
    var r := AddItemToCart(db, cartId, productId, quantity);
    if r.Success? {
      var p := db.products[productId].(productId := productId);
      PlacedCartStored(db, cartId, p, quantity);
      ReplaceCartKeepsConsistent(db, cartId, PlaceLine(db, cartId, p, quantity).value);
    }
  }

  /** Setting a quantity keeps the database consistent. */
  lemma UpdatePreservesConsistent(db: Db, cartId: string, itemId: string, quantity: Int32)
    requires Consistent(db)
    ensures var r := UpdateCartItemQuantity(db, cartId, itemId, quantity);
            r.Success? ==> Consistent(r.value)
  {
    var r := UpdateCartItemQuantity(db, cartId, itemId, quantity);
    if r.Success? {
      var c := r.value.carts[cartId];
      var cart := db.carts[cartId];
      assert forall k :: k in c.items ==> k in cart.items && c.items[k].productId == cart.items[k].productId;
      assert StoredCart(cartId, c);
    }
  }

  /** Removing a line keeps the database consistent. */
  lemma RemovePreservesConsistent(db: Db, cartId: string, itemId: string)
    requires Consistent(db)
    ensures var r := RemoveItem(db, cartId, itemId);
            r.Success? ==> Consistent(r.value)
  {
    var r := RemoveItem(db, cartId, itemId);
    if r.Success? {
      assert StoredCart(cartId, r.value.carts[cartId]);
    }
  }

  /** Clearing keeps the database consistent. */
  lemma ClearPreservesConsistent(db: Db, cartId: string)
    requires Consistent(db)
    ensures var r := ClearCart(db, cartId);
            r.Success? ==> Consistent(r.value)
  {
    var r := ClearCart(db, cartId);
    if r.Success? {
      assert StoredCart(cartId, r.value.carts[cartId]);
    }
  }

  /** A removed line is gone from every cart, so removing it again reports it missing. */
  lemma RemoveTwice(db: Db, cartId: string, itemId: string)
    requires Consistent(db)
    requires RemoveItem(db, cartId, itemId).Success?
    ensures RemoveItem(RemoveItem(db, cartId, itemId).value, cartId, itemId) == Failure(ItemNotFound)
  {
    var db' := RemoveItem(db, cartId, itemId).value;
    forall c | c in db'.carts
      ensures IdKey(itemId) !in db'.carts[c].items
    {
      if c != cartId {
        assert db'.carts[c] == db.carts[c];
      }
    }
  }

  /** Setting a quantity of zero or less is exactly removing the line. */
  lemma UpdateNonPositiveIsRemove(db: Db, cartId: string, itemId: string, quantity: Int32)
    requires quantity <= 0
    ensures UpdateCartItemQuantity(db, cartId, itemId, quantity) == RemoveItem(db, cartId, itemId)
  {
  }

  /** A stored line of another cart cannot be updated or removed through this cart. */
  lemma ForeignLineRejected(db: Db, cartId: string, other: string, itemId: string, quantity: Int32)
    requires Consistent(db)
    requires cartId in db.carts && other in db.carts && other != cartId
    requires IdKey(itemId) in db.carts[other].items
    ensures UpdateCartItemQuantity(db, cartId, itemId, quantity) == Failure(ItemNotInCart)
    ensures RemoveItem(db, cartId, itemId) == Failure(ItemNotInCart)
  {
  }

  /** Clearing twice is clearing once; a cleared cart has no lines and a zero total. */
  lemma ClearIdempotent(db: Db, cartId: string)
    requires cartId in db.carts
    ensures var once := ClearCart(db, cartId).value;
            && ClearCart(once, cartId) == Success(once)
            && Total(once.carts[cartId].items) == 0
  {
    var once := ClearCart(db, cartId).value;
    assert once.carts[cartId].items == map[];
    assert once.carts[cartId := once.carts[cartId].(items := map[])] == once.carts;
  }

  /**
   * The line merge as written overflows: a line at the largest `int`, plus one more
   * unit, wraps to the smallest `int` and passes the stock check.
   */
  lemma MergeOverflowCounterexample(item: CartItem)
    requires item.quantity == MaxInt32
    ensures MergeLineAsWritten(item, 1, MaxInt32) == Success(item.(quantity := MinInt32))
    ensures MergeLine(item, 1, MaxInt32) == Failure(InsufficientStock)
  {
    assert Wrap32(MaxInt32 + 1) == MinInt32;
  }

  /** The corrected merge never produces a line above stock or below its old quantity. */
  lemma MergeStaysInStock(item: CartItem, quantity: Int32, stock: Int32)
    requires 0 < quantity && item.quantity >= 1
    ensures var r := MergeLine(item, quantity, stock);
            r.Success? ==> item.quantity < r.value.quantity <= stock
  {
  }
}

=== FILE: common.dfy ===
/**
 * Failure-carrying result types shared by every service model.
 * `Option` stands for a nullable reference or a `java.util.Optional`;
 * `Result` stands for "returns normally" versus "throws".
 */
module Common {

  datatype Option<+T> = None | Some(value: T)

  datatype Result<+T, +E> = Success(value: T) | Failure(error: E)

  /** A set of size one has one element: what a query returning `Optional` may find. */
  lemma SingletonUnique<T>(s: set<T>)
    requires |s| == 1
    ensures exists a :: a in s
    ensures forall a, b :: a in s && b in s ==> a == b
  {
    var x :| x in s;
    assert s == {x} by {
      assert |s - {x}| == 0;
    }
  }
}

=== FILE: gemini.dfy ===
/**
 * The pure parts of the chatbot service: mapping a chat sender to a Gemini role,
 * assembling the ordered list of turns the request carries, and reading a reply out
 * of the response tree along a dotted, indexed path.
 *
 * The persona instruction and its acknowledgement are fixed texts of the service;
 * here they are a parameter. The HTTP exchange and JSON parsing and printing are
 * not modelled.
 */
module Gemini {
  import opened Common
  import opened JavaLang

  // ------------------------------------------------------------------ roles

  const UserRole: string := "user"
  const ModelRole: string := "model"

  /** Senders, after lower-casing, that speak for the model. */
  predicate ModelAlias(s: string)
  {
    s == "model" || s == "bot" || s == "assistant"
  }

  /**
   * `mapSenderToGeminiRole`: null and unknown senders become "user"; "model", "bot" and
   * "assistant" in any letter case become "model".
   */
  function RoleOf(sender: Option<string>): (r: string)
    ensures r == UserRole || r == ModelRole
    ensures r == ModelRole <==> sender.Some? && ModelAlias(LowerCase(sender.value))
  {
    if sender.None? then UserRole
    else
      var lower := LowerCase(sender.value);
      if lower == "user" then UserRole
      else if ModelAlias(lower) then ModelRole
      else UserRole
  }

  lemma {:induction false} LowerCaseIdempotent(s: string)
    ensures LowerCase(LowerCase(s)) == LowerCase(s)
  {
    if |s| > 0 {
      LowerCaseIdempotent(s[1..]);
      assert LowerCase(s)[1..] == LowerCase(s[1..]);
    }
  }

  /** Letter case does not matter, and a role maps to itself. */
  lemma RoleOfCaseInsensitive(s: string)
    ensures RoleOf(Some(s)) == RoleOf(Some(LowerCase(s)))
    ensures RoleOf(Some(RoleOf(Some(s)))) == RoleOf(Some(s))
  {
    LowerCaseIdempotent(s);
    assert LowerCase(UserRole) == UserRole;
    assert LowerCase(ModelRole) == ModelRole;
  }

  /** Some senders and the roles they get. */
  lemma RoleExamples()
    ensures RoleOf(None) == UserRole
    ensures RoleOf(Some("Bot")) == ModelRole
    ensures RoleOf(Some("User")) == UserRole
  {
    assert LowerCase("Bot") == "bot";
    assert LowerCase("User") == "user";
  }

  /** Upper-case aliases still speak for the model; unknown senders fall back to the user. */
  lemma RoleFallbackExamples()
    ensures RoleOf(Some("ASSISTANT")) == ModelRole
    ensures RoleOf(Some("admin")) == UserRole
  {
    assert LowerCase("NT") == "nt";
    assert LowerCase("TANT") == "tant";
    assert LowerCase("ISTANT") == "istant";
    assert LowerCase("SSISTANT") == "ssistant";
    assert LowerCase("ASSISTANT") == "assistant";
    assert LowerCase("admin") == "admin";
  }

  // ------------------------------------------------------------------ turns

  /** A chat message as the client sends it; the timestamp plays no part. */
  datatype Message = Message(text: Option<string>, sender: Option<string>)

  /** One element of the request's `contents`: a role and the text of its single part. */
  datatype Turn = Turn(role: string, text: Option<string>)

  /** The fixed persona instruction and the model's fixed acknowledgement of it. */
  datatype Persona = Persona(instruction: string, acknowledgement: string)

  /** The history as turns, in order, each with its mapped role and its own text. */
  function HistoryTurns(history: seq<Message>): (r: seq<Turn>)
    ensures |r| == |history|
    ensures forall i :: 0 <= i < |history| ==> r[i] == Turn(RoleOf(history[i].sender), history[i].text)
  {
    if |history| == 0 then []
    else [Turn(RoleOf(history[0].sender), history[0].text)] + HistoryTurns(history[1..])
  }

  /**
   * The `contents` list `sendMessageToGemini` builds: the persona as a user turn, its
   * acknowledgement as a model turn, the history (null meaning none), then the current
   * message as a user turn.
   */
  function RequestTurns(persona: Persona, userMessage: Option<string>, history: Option<seq<Message>>): (r: seq<Turn>)
    ensures var h := if history.Some? then history.value else [];
            && |r| == |h| + 3
            && r[0] == Turn(UserRole, Some(persona.instruction))
            && r[1] == Turn(ModelRole, Some(persona.acknowledgement))
            && (forall i :: 0 <= i < |h| ==> r[i + 2] == Turn(RoleOf(h[i].sender), h[i].text))
            && r[|r| - 1] == Turn(UserRole, userMessage)
    ensures forall i :: 0 <= i < |r| ==> r[i].role == UserRole || r[i].role == ModelRole
  {
    var h := if history.Some? then history.value else [];
    [Turn(UserRole, Some(persona.instruction)), Turn(ModelRole, Some(persona.acknowledgement))]
      + HistoryTurns(h) + [Turn(UserRole, userMessage)]
  }

  /** A null history and an empty one give the same request. */
  lemma NullHistoryIsEmpty(persona: Persona, userMessage: Option<string>)
    ensures RequestTurns(persona, userMessage, None) == RequestTurns(persona, userMessage, Some([]))
    ensures |RequestTurns(persona, userMessage, None)| == 3
  {
  }

  /** Continuing a conversation appends to the history part and keeps what came before. */
  lemma {:induction false} HistoryTurnsAppend(a: seq<Message>, b: seq<Message>)
    ensures HistoryTurns(a + b) == HistoryTurns(a) + HistoryTurns(b)
  {
    if |a| > 0 {
      assert (a + b)[1..] == a[1..] + b;
      HistoryTurnsAppend(a[1..], b);
    }
  }

  // ----------------------------------------------------------- path lookup

  /** A JSON tree as Jackson reads it. */
  datatype Json =
    | JNull
    | JBool(b: bool)
    | JNumber(n: int)
    | JText(s: string)
    | JArray(elems: seq<Json>)
    | JObject(fields: map<string, Json>)

  /** One dot-separated piece of a path: `name`, or `name[index]`. */
  datatype Segment = Field(name: string) | Indexed(name: string, index: int)

  /**
   * Where a path leads: a node, nowhere (the method returns null), or a
   * `NullPointerException` (a negative index makes `ArrayNode.get` return null).
   */
  datatype Resolution = Found(node: Json) | Nowhere | Crash

  /** `node.path(name)`: the field of an object, missing for anything else. */
  function Child(node: Json, name: string): Option<Json>
  {
    if node.JObject? && name in node.fields then Some(node.fields[name]) else None
  }

  /** One loop iteration of `parseJsonNodeByPath`, including its missing-or-null test. */
  function Step(node: Json, seg: Segment): (r: Resolution)
    ensures r.Found? ==> !r.node.JNull?
  {
    match seg
    case Field(name) =>
      var child := Child(node, name);
      if child.None? || child.value.JNull? then Nowhere else Found(child.value)
    case Indexed(name, index) =>
      var child := Child(node, name);
      if child.Some? && child.value.JArray? && |child.value.elems| > index then
        if index < 0 then Crash
        else if child.value.elems[index].JNull? then Nowhere
        else Found(child.value.elems[index])
      else Nowhere
  }

  /** Follow the segments from `node`, stopping at the first missing or null step. */
  function Resolve(node: Json, path: seq<Segment>): Resolution
  {
    if |path| == 0 then Found(node)
    else
      match Step(node, path[0])
      case Found(next) => Resolve(next, path[1..])
      case other => other
  }

  /** What `parseJsonNodeByPath` returns. */
  datatype Lookup =
    | Text(s: string)           // a textual node's text
    | Rendered(node: Json)      // any other node, returned as its JSON serialisation
    | Null                      // the method returns null
    | Thrown                    // the method throws

  /** `parseJsonNodeByPath(root, path)` on an already split path. */
  function ParsePath(root: Json, path: seq<Segment>): (r: Lookup)
    ensures r.Text? <==> Resolve(root, path).Found? && Resolve(root, path).node.JText?
    ensures r.Null? <==> Resolve(root, path).Nowhere?
    ensures r.Thrown? <==> Resolve(root, path).Crash?
  {
    match Resolve(root, path)
    case Found(JText(s)) => Text(s)
    case Found(node) => Rendered(node)
    case Nowhere => Null
    case Crash => Thrown
  }

  /** "candidates[0].content.parts[0].text", the path the service reads replies from. */
  const ReplyPath: seq<Segment> :=
    [Indexed("candidates", 0), Field("content"), Indexed("parts", 0), Field("text")]

  /** The tree in which `path` leads to `leaf`: objects for fields, null-padded arrays for indices. */
  function Embed(path: seq<Segment>, leaf: Json): Json
    requires forall i :: 0 <= i < |path| ==> path[i].Indexed? ==> path[i].index >= 0
  {
    if |path| == 0 then leaf
    else
      var inner := Embed(path[1..], leaf);
      match path[0]
      case Field(name) => JObject(map[name := inner])
      case Indexed(name, index) => JObject(map[name := JArray(Nulls(index) + [inner])])
  }

  function Nulls(n: nat): (r: seq<Json>)
    ensures |r| == n
  {
    if n == 0 then [] else [JNull] + Nulls(n - 1)
  }

  // ----------------------------------------------------------------- lemmas

  /** Following `p + q` is following `p`, then `q` from wherever `p` led. */
  lemma {:induction false} ResolveAppend(node: Json, p: seq<Segment>, q: seq<Segment>)
    ensures Resolve(node, p + q)
            == match Resolve(node, p)
               case Found(mid) => Resolve(mid, q)
               case other => other
  {
    if |p| > 0 {
      assert (p + q)[0] == p[0];
      assert (p + q)[1..] == p[1..] + q;
      match Step(node, p[0])
      case Found(next) => ResolveAppend(next, p[1..], q);
      case _ =>
    } else {
      assert p + q == q;
    }
  }

  /** A path leads back to the leaf it was built around, unless that leaf is null. */
  lemma {:induction false} EmbedRoundTrip(path: seq<Segment>, leaf: Json)
    requires forall i :: 0 <= i < |path| ==> path[i].Indexed? ==> path[i].index >= 0
    requires !leaf.JNull?
    ensures Resolve(Embed(path, leaf), path) == Found(leaf)
  {
    if |path| > 0 {
      var inner := Embed(path[1..], leaf);
      EmbedRoundTrip(path[1..], leaf);
      assert !inner.JNull? by {
        EmbedNotNull(path[1..], leaf);
      }
      match path[0]
      case Field(name) =>
      case Indexed(name, index) =>
        assert (Nulls(index) + [inner])[index] == inner;
    }
  }

  lemma EmbedNotNull(path: seq<Segment>, leaf: Json)
    requires forall i :: 0 <= i < |path| ==> path[i].Indexed? ==> path[i].index >= 0
    requires !leaf.JNull?
    ensures !Embed(path, leaf).JNull?
  {
  }

  /** A reply shaped as the service expects yields its text. */
  lemma ReplyRoundTrip(reply: string)
    ensures ParsePath(Embed(ReplyPath, JText(reply)), ReplyPath) == Text(reply)
  {
    EmbedRoundTrip(ReplyPath, JText(reply));
  }

  /** Nothing but an object has children: a non-empty path from anything else leads nowhere. */
  lemma LeafHasNoPath(node: Json, path: seq<Segment>)
    requires |path| > 0 && !node.JObject?
    ensures ParsePath(node, path) == Null
  {
  }

  /** A reply without candidates, or with an empty list of them, gives null. */
  lemma NoCandidates(fields: map<string, Json>)
    requires "candidates" !in fields || fields["candidates"] == JArray([])
    ensures ParsePath(JObject(fields), ReplyPath) == Null
  {
  }

  /** A negative index into an existing, non-empty array throws instead of returning null. */
  lemma NegativeIndexThrows(name: string, elems: seq<Json>, index: int, rest: seq<Segment>)
    requires index < 0
    ensures ParsePath(JObject(map[name := JArray(elems)]), [Indexed(name, index)] + rest) == Thrown
  {
    assert ([Indexed(name, index)] + rest)[0] == Indexed(name, index);
  }
}

=== FILE: id_generator.dfy ===
/**
 * Sequential prefixed identifiers (IdGeneratorService).
 *
 * The service asks the database for the largest numeric suffix among the ids of a
 * table that start with a prefix (`MAX(CAST(SUBSTRING(col, |prefix| + 1) AS UNSIGNED))`),
 * adds one, and renders `prefix` followed by the new number zero-padded to
 * `length - |prefix|` digits. Here the table column is a finite set of strings and the
 * SQL aggregate is the maximum of a finite set of naturals.
 */
module IdGenerator {
  import opened Common

  // ---------------------------------------------------------------- digits

  predicate IsDigit(c: char) { '0' <= c <= '9' }

  predicate AllDigits(s: string) { forall i :: 0 <= i < |s| ==> IsDigit(s[i]) }

  function DigitChar(d: nat): char
    requires d < 10
  {
    ('0' as int + d) as char
  }

  function DigitValue(c: char): nat
    requires IsDigit(c)
  {
    c as int - '0' as int
  }

  function Pow10(k: nat): (r: nat)
    ensures r >= 1
  {
    if k == 0 then 1 else 10 * Pow10(k - 1)
  }

  /** `%d` of a natural number: its decimal digits, without leading zeros. */
  function Decimal(n: nat): (s: string)
    ensures 1 <= |s|
    ensures AllDigits(s)
    decreases n
  {
    if n < 10 then [DigitChar(n)] else Decimal(n / 10) + [DigitChar(n % 10)]
  }

  /** The number an all-digit string denotes, read as unsigned decimal. */
  function ValueOf(s: string): nat
    requires AllDigits(s)
  {
    if |s| == 0 then 0 else ValueOf(s[..|s| - 1]) * 10 + DigitValue(s[|s| - 1])
  }

  /** The longest run of decimal digits at the start of `s`. */
  function LeadingDigits(s: string): (d: string)
    ensures d <= s
    ensures AllDigits(d)
    ensures |d| < |s| ==> !IsDigit(s[|d|])
  {
    if |s| == 0 || !IsDigit(s[0]) then "" else [s[0]] + LeadingDigits(s[1..])
  }

  /** MySQL `CAST(s AS UNSIGNED)`: the value of the leading digits, 0 when there are none. */
  function CastUnsigned(s: string): nat
  {
    ValueOf(LeadingDigits(s))
  }

  function Zeros(k: nat): (z: string)
    ensures |z| == k
    ensures forall i :: 0 <= i < k ==> z[i] == '0'
  {
    seq(k, _ => '0')
  }

  /** `String.format("%0<width>d", ...)` applied to already rendered digits. */
  function ZeroPad(digits: string, width: nat): string
  {
    if |digits| >= width then digits else Zeros(width - |digits|) + digits
  }

  // ----------------------------------------------------------- the SQL max

  predicate IsMax(m: nat, s: set<nat>)
  {
    m in s && forall x :: x in s ==> x <= m
  }

  lemma {:induction false} MaxExists(s: set<nat>)
    requires s != {}
    ensures exists m :: IsMax(m, s)
    decreases |s|
  {
    var x :| x in s;
    if s - {x} == {} {
      assert s == {x};
      assert IsMax(x, s);
    } else {
      MaxExists(s - {x});
      var m :| IsMax(m, s - {x});
      assert forall y :: y in s ==> y == x || y in s - {x};
      if x <= m {
        assert IsMax(m, s);
      } else {
        assert IsMax(x, s);
      }
    }
  }

  /** SQL `MAX` over a column: NULL on an empty set of rows. */
  function SqlMax(s: set<nat>): (r: Option<nat>)
    ensures r.None? <==> s == {}
    ensures r.Some? ==> IsMax(r.value, s)
  {
    if s == {} then None
    else
      MaxExists(s);
      var m :| IsMax(m, s);
      Some(m)
  }

  /**
   * The numeric suffixes of the ids that start with `prefix`
   * (`WHERE col LIKE 'prefix%'`, then `CAST(SUBSTRING(col, |prefix| + 1) AS UNSIGNED)`).
   */
  function Suffixes(ids: set<string>, prefix: string): set<nat>
  {
    set id | id in ids && prefix <= id :: CastUnsigned(id[|prefix|..])
  }

  /** `maxId == null ? 0 : maxId`, plus one. */
  function NextSuffix(existing: set<nat>): (n: nat)
    ensures n >= 1
    ensures forall x :: x in existing ==> x < n
    ensures existing == {} ==> n == 1
    ensures existing != {} ==> n - 1 in existing
  {
    match SqlMax(existing)
    case None => 1
    case Some(m) => m + 1
  }

  /** The rendered identifier: prefix, then the number padded to `width` digits. */
  function Render(prefix: string, n: nat, width: nat): string
  {
    prefix + ZeroPad(Decimal(n), width)
  }

  // ------------------------------------------------------------- generateId

  /** Java's Formatter rejects the pattern `%0<w>d` for a width that is not positive. */
  datatype IdError = BadWidth(width: int)

  function GenerateId(ids: set<string>, prefix: string, length: int): (r: Result<string, IdError>)
    ensures r.Failure? <==> length - |prefix| <= 0
    ensures r.Success? ==> prefix <= r.value
    ensures r.Success? ==> CastUnsigned(r.value[|prefix|..]) == NextSuffix(Suffixes(ids, prefix))
    ensures r.Success? ==> r.value !in ids
  {
    if length - |prefix| <= 0 then Failure(BadWidth(length - |prefix|))
    else
      var n := NextSuffix(Suffixes(ids, prefix));
      RenderRoundTrip(prefix, n, length - |prefix|);
      RenderIsFresh(ids, prefix, n, length - |prefix|);
      Success(Render(prefix, n, length - |prefix|))
  }

  /** The three callers: carts, cart items and users, all seven characters long. */
  function CartId(ids: set<string>): (r: string)
    ensures GenerateId(ids, "CRT", 7) == Success(r)
  {
    RenderRoundTrip("CRT", NextSuffix(Suffixes(ids, "CRT")), 4);
    Render("CRT", NextSuffix(Suffixes(ids, "CRT")), 4)
  }

  function CartItemId(ids: set<string>): (r: string)
    ensures GenerateId(ids, "CIT", 7) == Success(r)
  {
    Render("CIT", NextSuffix(Suffixes(ids, "CIT")), 4)
  }

  function UserId(ids: set<string>): (r: string)
    ensures GenerateId(ids, "CUS", 7) == Success(r)
  {
    Render("CUS", NextSuffix(Suffixes(ids, "CUS")), 4)
  }

  // ---------------------------------------------------------------- lemmas

  lemma {:induction false} DecimalRoundTrip(n: nat)
    ensures ValueOf(Decimal(n)) == n
    decreases n
  {
    if n >= 10 {
      var s := Decimal(n);
      assert s[..|s| - 1] == Decimal(n / 10);
      DecimalRoundTrip(n / 10);
    }
  }

  lemma {:induction false} ZerosValue(k: nat)
    ensures ValueOf(Zeros(k)) == 0
  {
    if k > 0 {
      assert Zeros(k)[..k - 1] == Zeros(k - 1);
      ZerosValue(k - 1);
    }
  }

  lemma {:induction false} LeadingZerosValue(k: nat, s: string)
    requires AllDigits(s)
    ensures AllDigits(Zeros(k) + s)
    ensures ValueOf(Zeros(k) + s) == ValueOf(s)
    decreases |s|
  {
    var t := Zeros(k) + s;
    if |s| == 0 {
      assert t == Zeros(k);
      ZerosValue(k);
    } else {
      assert t[..|t| - 1] == Zeros(k) + s[..|s| - 1];
      LeadingZerosValue(k, s[..|s| - 1]);
    }
  }

  lemma {:induction false} LeadingDigitsOfDigits(s: string)
    requires AllDigits(s)
    ensures LeadingDigits(s) == s
    decreases |s|
  {
    if |s| > 0 {
      LeadingDigitsOfDigits(s[1..]);
      assert [s[0]] + s[1..] == s;
    }
  }

  /** Parsing the digits of a padded number gives the number back. */
  lemma PaddedRoundTrip(n: nat, width: nat)
    ensures AllDigits(ZeroPad(Decimal(n), width))
    ensures CastUnsigned(ZeroPad(Decimal(n), width)) == n
  {
    var d := Decimal(n);
    DecimalRoundTrip(n);
    if |d| < width {
      LeadingZerosValue(width - |d|, d);
    }
    LeadingDigitsOfDigits(ZeroPad(d, width));
  }

  /** Stripping the prefix from a rendered id and casting the rest yields the suffix. */
  lemma RenderRoundTrip(prefix: string, n: nat, width: nat)
    ensures prefix <= Render(prefix, n, width)
    ensures Render(prefix, n, width)[|prefix|..] == ZeroPad(Decimal(n), width)
    ensures CastUnsigned(Render(prefix, n, width)[|prefix|..]) == n
  {
    PaddedRoundTrip(n, width);
  }

  /** A rendered id with a suffix above every existing suffix is not an existing id. */
  lemma RenderIsFresh(ids: set<string>, prefix: string, n: nat, width: nat)
    requires forall x :: x in Suffixes(ids, prefix) ==> x < n
    ensures Render(prefix, n, width) !in ids
  {
    RenderRoundTrip(prefix, n, width);
    assert forall id :: id in ids && prefix <= id ==> CastUnsigned(id[|prefix|..]) in Suffixes(ids, prefix);
  }

  lemma {:induction false} DecimalLength(n: nat, w: nat)
    requires w >= 1
    ensures |Decimal(n)| <= w <==> n < Pow10(w)
    decreases n
  {
    if n >= 10 {
      if w == 1 {
        assert |Decimal(n)| == |Decimal(n / 10)| + 1;
      } else {
        DecimalLength(n / 10, w - 1);
        assert Pow10(w) == 10 * Pow10(w - 1);
        assert n / 10 < Pow10(w - 1) <==> n < 10 * Pow10(w - 1);
      }
    } else {
      assert Pow10(w) >= 10 by { Pow10Grows(w); }
    }
  }

  lemma {:induction false} Pow10Grows(w: nat)
    requires w >= 1
    ensures Pow10(w) >= 10
  {
    if w > 1 {
      Pow10Grows(w - 1);
    }
  }

  /**
   * The id has exactly `length` characters while the suffix fits in the digits
   * available, and is longer otherwise: nothing stops the namespace from overflowing.
   */
  lemma GeneratedLength(ids: set<string>, prefix: string, length: int)
    requires length - |prefix| >= 1
    ensures GenerateId(ids, prefix, length).Success?
    ensures var n := NextSuffix(Suffixes(ids, prefix));
            var id := GenerateId(ids, prefix, length).value;
            (n < Pow10(length - |prefix|) ==> |id| == length)
            && (n >= Pow10(length - |prefix|) ==> |id| > length)
  {
    var n := NextSuffix(Suffixes(ids, prefix));
    DecimalLength(n, length - |prefix|);
  }

  /** All three service prefixes give seven-character ids until suffix 9999. */
  lemma ServiceIdLength(ids: set<string>)
    ensures NextSuffix(Suffixes(ids, "CRT")) < 10000 ==> |CartId(ids)| == 7
    ensures NextSuffix(Suffixes(ids, "CIT")) < 10000 ==> |CartItemId(ids)| == 7
    ensures NextSuffix(Suffixes(ids, "CUS")) < 10000 ==> |UserId(ids)| == 7
  {
    assert Pow10(4) == 10000;
    GeneratedLength(ids, "CRT", 7);
    GeneratedLength(ids, "CIT", 7);
    GeneratedLength(ids, "CUS", 7);
  }

  /** Inserting the generated suffix makes the next one exactly one larger. */
  lemma NextAfterInsert(s: set<nat>)
    ensures NextSuffix(s + {NextSuffix(s)}) == NextSuffix(s) + 1
  {
    var n := NextSuffix(s);
    var t := s + {n};
    assert IsMax(n, t);
    var m := NextSuffix(t);
    assert m - 1 in t;
  }

  /**
   * Two allocations in a row, the first id stored before the second is generated,
   * give consecutive suffixes: ids grow strictly and never repeat.
   */
  lemma SequentialAllocation(ids: set<string>, prefix: string, length: int)
    requires length - |prefix| >= 1
    ensures var first := GenerateId(ids, prefix, length).value;
            var second := GenerateId(ids + {first}, prefix, length);
            && second.Success?
            && second.value != first
            && CastUnsigned(second.value[|prefix|..]) == CastUnsigned(first[|prefix|..]) + 1
  {
    var first := GenerateId(ids, prefix, length).value;
    var n := NextSuffix(Suffixes(ids, prefix));
    assert Suffixes(ids + {first}, prefix) == Suffixes(ids, prefix) + {n} by {
      RenderRoundTrip(prefix, n, length - |prefix|);
    }
    NextAfterInsert(Suffixes(ids, prefix));
  }

  /** Ids with another prefix never influence the next suffix. */
  lemma OtherPrefixIgnored(ids: set<string>, prefix: string, other: string)
    requires !(prefix <= other)
    ensures NextSuffix(Suffixes(ids + {other}, prefix)) == NextSuffix(Suffixes(ids, prefix))
  {
    assert Suffixes(ids + {other}, prefix) == Suffixes(ids, prefix);
  }

  /**
   * Suffixes compare as numbers: with "CUS9" and "CUS10" stored the next suffix is 11,
   * although "CUS9" is the larger string.
   */
  lemma NumericNotLexicographic()
    ensures NextSuffix(Suffixes({"CUS9", "CUS10"}, "CUS")) == 11
  {
    var ids := {"CUS9", "CUS10"};
    assert "CUS9"[3..] == "9";
    assert "CUS10"[3..] == "10";
    assert LeadingDigits("9") == "9" by { LeadingDigitsOfDigits("9"); }
    assert LeadingDigits("10") == "10" by { LeadingDigitsOfDigits("10"); }
    assert ValueOf("10") == 10 by { assert "10"[..1] == "1"; }
    assert Suffixes(ids, "CUS") == {9, 10};
    assert IsMax(10, {9, 10});
  }
}

=== FILE: java_lang.dfy ===
/**
 * The few pieces of java.lang behaviour the services depend on:
 * 32-bit `int` arithmetic, `String.hashCode`, `Objects.hash` of one value,
 * ASCII `toLowerCase`, and `equals` between boxed values of different classes.
 */
module JavaLang {

  const MinInt32: int := -0x8000_0000
  const MaxInt32: int := 0x7fff_ffff

  /** A value of Java's `int` (or a non-null `Integer`). */
  type Int32 = x: int | MinInt32 <= x <= MaxInt32

  /** Two's-complement wrap-around of Java `int` arithmetic. */
  function Wrap32(x: int): (r: Int32)
    ensures (r - x) % 0x1_0000_0000 == 0
    ensures MinInt32 <= x <= MaxInt32 ==> r == x
  {
    var m := x % 0x1_0000_0000;
    if m > MaxInt32 then m - 0x1_0000_0000 else m
  }

  /** `String.hashCode`: h = 31 * h + c over the characters, in `int` arithmetic. */
  function StringHash(s: string): Int32
  {
    if |s| == 0 then 0 else Wrap32(31 * StringHash(s[..|s| - 1]) + s[|s| - 1] as int)
  }

  /** `Objects.hash(x)` for a single non-null string argument: 31 * 1 + x.hashCode(). */
  function ObjectsHash(s: string): Int32
  {
    Wrap32(31 + StringHash(s))
  }

  /** `Character.toLowerCase` restricted to ASCII letters. */
  function LowerChar(c: char): char
  {
    if 'A' <= c <= 'Z' then (c as int + 32) as char else c
  }

  function LowerCase(s: string): (r: string)
    ensures |r| == |s|
  {
    if |s| == 0 then "" else [LowerChar(s[0])] + LowerCase(s[1..])
  }

  /** A boxed value as seen by `Object.equals`: an `Integer` or a `Boolean`. */
  datatype Boxed = BoxedInt(i: int) | BoxedBool(b: bool)

  /** `Integer.equals` and `Boolean.equals`: true only for the same class and value. */
  predicate BoxedEquals(a: Boxed, b: Boxed)
  {
    match (a, b)
    case (BoxedInt(x), BoxedInt(y)) => x == y
    case (BoxedBool(x), BoxedBool(y)) => x == y
    case _ => false
  }
}

=== FILE: product.dfy ===
/**
 * The Product entity as the cart and catalogue services see it: key, display fields,
 * an exact integer price (`DECIMAL(10,0)`) and a stock count.
 */
module Products {
  import opened Common
  import opened JavaLang

  datatype Product = Product(
    productId: string,
    name: string,
    price: int,
    stockQuantity: Int32,
    imageUrl: Option<string>)
}

=== FILE: product_service.dfy ===
/**
 * ProductService: the catalogue's validation rules. The product repository is a map
 * from product id to product; `save` is an upsert under the entity's id.
 */
module ProductService {
  import opened Common
  import opened JavaLang
  import opened Products

  datatype ProductError =
    | BadProductId       // the id does not match the pattern "PRD...."
    | NegativeStock
    | ProductNotFound

  /**
   * The characters a regular-expression `.` does not match: the line terminators
   * of `java.util.regex.Pattern` without DOTALL.
   */
  predicate LineTerminator(c: char)
  {
    c == '\n' || c == '\r' || c == '\U{0085}' || c == '\U{2028}' || c == '\U{2029}'
  }

  /**
   * `productId.matches("PRD....")`: the whole id is "PRD" and four more code points,
   * none of them a line terminator.
   */
  predicate ValidProductId(id: string)
  {
    && |id| == 7
    && id[..3] == "PRD"
    && forall i :: 3 <= i < 7 ==> !LineTerminator(id[i])
  }

  /** `saveProduct`: validate the id, then the stock, then upsert. */
  function SaveProduct(products: map<string, Product>, p: Product): (r: Result<(map<string, Product>, Product), ProductError>)
    ensures !ValidProductId(p.productId) ==> r == Failure(BadProductId)
    ensures ValidProductId(p.productId) && p.stockQuantity < 0 ==> r == Failure(NegativeStock)
    ensures r.Success? <==> ValidProductId(p.productId) && p.stockQuantity >= 0
    ensures r.Success? ==>
              && r.value.1 == p
              && p.productId in r.value.0 && r.value.0[p.productId] == p
              && r.value.0.Keys == products.Keys + {p.productId}
              && forall id :: id in products && id != p.productId ==> r.value.0[id] == products[id]
  {
    if !ValidProductId(p.productId) then Failure(BadProductId)
    else if p.stockQuantity < 0 then Failure(NegativeStock)
    else Success((products[p.productId := p], p))
  }

  /**
   * `updateProductStock`: a negative count is rejected before the lookup; an unknown id
   * yields an empty result and changes nothing.
   */
  function UpdateProductStock(products: map<string, Product>, productId: string, stock: Int32)
    : (r: Result<(map<string, Product>, Option<Product>), ProductError>)
    ensures stock < 0 ==> r == Failure(NegativeStock)
    ensures r.Failure? ==> stock < 0
    ensures stock >= 0 && productId !in products ==> r == Success((products, None))
    ensures r.Success? && productId in products ==>
              var (products', updated) := r.value;
              && updated.Some?
              && updated.value.stockQuantity == stock
              && updated.value.(stockQuantity := products[productId].stockQuantity)
                 == products[productId].(productId := productId)
              && products' == products[productId := updated.value]
  {
    if stock < 0 then Failure(NegativeStock)
    else if productId !in products then Success((products, None))
    else
      // the entity `findById` loads carries the key it was found under
      var updated := products[productId].(productId := productId, stockQuantity := stock);
      Success((products[productId := updated], Some(updated)))
  }

  /** `deleteProduct`. */
  function DeleteProduct(products: map<string, Product>, productId: string): (r: Result<map<string, Product>, ProductError>)
    ensures r.Failure? <==> productId !in products
    ensures r.Failure? ==> r.error == ProductNotFound
    ensures r.Success? ==> productId !in r.value && r.value.Keys == products.Keys - {productId}
    ensures r.Success? ==> forall id :: id in r.value ==> r.value[id] == products[id]
  {
    if productId !in products then Failure(ProductNotFound)
    else Success(products - {productId})
  }

  // ---------------------------------------------------------------- lemmas

  /** Every stored product is stored under its own id. */
  predicate KeyedById(products: map<string, Product>)
  {
    forall id :: id in products ==> products[id].productId == id
  }

  /** Saving a product under a new id and deleting it again restores the catalogue. */
  lemma SaveThenDelete(products: map<string, Product>, p: Product)
    requires p.productId !in products
    requires SaveProduct(products, p).Success?
    ensures DeleteProduct(SaveProduct(products, p).value.0, p.productId) == Success(products)
  {
    assert products[p.productId := p] - {p.productId} == products;
  }

  /** Saving the same product twice is saving it once. */
  lemma SaveIdempotent(products: map<string, Product>, p: Product)
    requires SaveProduct(products, p).Success?
    ensures SaveProduct(SaveProduct(products, p).value.0, p) == SaveProduct(products, p)
  {
    var once := products[p.productId := p];
    assert once[p.productId := p] == once;
  }

  /** Setting a stock and then setting it back restores the catalogue. */
  lemma UpdateStockRoundTrip(products: map<string, Product>, productId: string, stock: Int32)
    requires KeyedById(products)
    requires productId in products && stock >= 0 && products[productId].stockQuantity >= 0
    ensures var once := UpdateProductStock(products, productId, stock).value.0;
            UpdateProductStock(once, productId, products[productId].stockQuantity).value.0 == products
  {
    var once := UpdateProductStock(products, productId, stock).value.0;
    assert once[productId := products[productId]] == products;
  }

  /** The operations keep every product under its own id. */
  lemma OperationsKeepKeys(products: map<string, Product>, p: Product, productId: string, stock: Int32)
    requires KeyedById(products)
    ensures SaveProduct(products, p).Success? ==> KeyedById(SaveProduct(products, p).value.0)
    ensures UpdateProductStock(products, productId, stock).Success? ==>
              KeyedById(UpdateProductStock(products, productId, stock).value.0)
    ensures DeleteProduct(products, productId).Success? ==> KeyedById(DeleteProduct(products, productId).value)
  {
  }

  /** The pattern fixes the length in code points: "PRD0001" passes, "PRD001" and "PRD00001" do not. */
  lemma ProductIdExamples()
    ensures ValidProductId("PRD0001") && ValidProductId("PRDabcd")
    ensures !ValidProductId("PRD001") && !ValidProductId("PRD00001") && !ValidProductId("PRX0001")
    ensures !ValidProductId("PRD00\n1")
  {
    assert "PRX0001"[..3] != "PRD" by {
      assert "PRX0001"[2] != "PRD"[2];
    }
    assert LineTerminator("PRD00\n1"[5]);
  }
}

=== FILE: user_service.dfy ===
/**
 * UserService: registration, saving, authentication and deletion of users, and the
 * role listing. The database is the users table and the carts table (keyed by their
 * primary keys); registration provisions the user's cart.
 *
 * BCrypt is a parameter (`Encoder`), since its hashing is not part of this model.
 * As in the cart model, every operation runs in one transaction, so a failure
 * carries no state.
 */
module UserService {
  import opened Common
  import opened JavaLang
  import opened Carts
  import IdGenerator

  /**
   * A user row; names and timestamps play no part in these rules. The phone column is
   * UNIQUE and nullable, so several users may have no phone.
   */
  datatype User = User(
    userId: Option<string>,
    email: string,
    phone: Option<string>,
    passwordHash: Option<string>,
    role: Option<int>)

  /** The password encoder the service is wired with: `encode(raw)` and `matches(raw, encoded)`. */
  datatype Encoder = Encoder(encode: string -> string, matches: (string, string) -> bool)

  datatype UserDb = UserDb(users: map<string, User>, carts: map<string, Cart>)

  datatype UserError =
    | EmailTaken
    | NonUniqueEmail   // `findByEmail` found several rows
    | NonUniqueCart    // `findByUser` found several carts
    | NullPassword     // `getPasswordHash().startsWith(...)` on null
    | PhoneTaken       // the UNIQUE phone column rejects the row at the flush
    | UserNotFound

  /** The prefix every BCrypt hash of the `$2a$` variant carries. */
  const HashMarker: string := "$2a$"

  /** Ids of the stored users with this email: the rows `findByEmail` matches. */
  function EmailOwners(db: UserDb, email: string): set<string>
  {
    set id | id in db.users && db.users[id].email == email
  }

  /**
   * Ids of the stored users other than `id` that hold `phone`: the rows the UNIQUE
   * constraint on the phone column clashes with when user `id` is written with it.
   * A null phone clashes with nobody.
   */
  function PhoneClashes(db: UserDb, id: string, phone: Option<string>): set<string>
  {
    if phone.None? then {} else set o | o in db.users && o != id && db.users[o].phone == phone
  }

  /** Stored non-null phones are unique, as the column's UNIQUE constraint keeps them. */
  predicate PhonesUnique(db: UserDb)
  {
    forall a, b :: a in db.users && b in db.users && db.users[a].phone.Some? && db.users[a].phone == db.users[b].phone ==> a == b
  }

  /** Keys of the carts whose user is `userId`: the rows `findByUser` matches. */
  function OwnedCarts(carts: map<string, Cart>, userId: string): set<string>
  {
    set id | id in carts && carts[id].ownerId == Some(userId)
  }

  /** Stored emails are unique, as the column's UNIQUE constraint keeps them. */
  predicate EmailsUnique(db: UserDb)
  {
    forall a, b :: a in db.users && b in db.users && db.users[a].email == db.users[b].email ==> a == b
  }

  /** `existsByEmail`, which asks `findByEmail(email).isPresent()`; two matches throw. */
  function ExistsByEmail(db: UserDb, email: string): (r: Result<bool, UserError>)
    ensures r.Failure? <==> |EmailOwners(db, email)| > 1
    ensures r.Success? ==> (r.value <==> exists id :: id in db.users && db.users[id].email == email)
  {
    var owners := EmailOwners(db, email);
    if |owners| > 1 then Failure(NonUniqueEmail)
    else
      assert forall id :: id in db.users && db.users[id].email == email ==> id in owners;
      Success(|owners| == 1)
  }

  /** The key a user is saved under: its own id, or a newly generated "CUS" id when it has none. */
  function AssignedId(db: UserDb, user: User): (id: string)
    ensures user.userId.Some? ==> id == user.userId.value
    ensures user.userId.None? ==> IdGenerator.GenerateId(db.users.Keys, "CUS", 7) == Success(id)
    ensures user.userId.None? ==> "CUS" <= id && id !in db.users
  {
    if user.userId.Some? then user.userId.value else IdGenerator.UserId(db.users.Keys)
  }

  /** The hash to store: a value that already carries the marker is taken as hashed. */
  function StoredHash(enc: Encoder, password: string): string
  {
    if HashMarker <= password then password else enc.encode(password)
  }

  /** The carts table after saving a new cart, under a fresh "CRT" key, owned by `userId`. */
  function WithNewCart(carts: map<string, Cart>, userId: string): (r: map<string, Cart>)
    requires OwnedCarts(carts, userId) == {}
    ensures OwnedCarts(r, userId) == {IdGenerator.CartId(carts.Keys)}
    ensures var c := IdGenerator.CartId(carts.Keys);
            && c !in carts && "CRT" <= c && r.Keys == carts.Keys + {c}
            && r[c].cartId == Some(c) && r[c].ownerId == Some(userId) && |r[c].items| == 0
    ensures forall c :: c in carts ==> r[c] == carts[c]
  {
    var cid := IdGenerator.CartId(carts.Keys);
    assert cid !in carts && "CRT" <= cid by {
      assert IdGenerator.GenerateId(carts.Keys, "CRT", 7) == Success(cid);
    }
    var cart := Cart(0, Some(cid), Some(userId), map[]);
    var r := carts[cid := cart];
    assert OwnedCarts(r, userId) == {cid} by {
      assert forall c :: c in carts ==> c !in OwnedCarts(carts, userId);
    }
    r
  }

  /**
   * The cart provisioning step of `registerUser`: a cart is created only when
   * `findByUser` finds none, so afterwards the user owns exactly one.
   */
  function ProvisionCart(db: UserDb, userId: string): (r: Result<UserDb, UserError>)
    ensures r.Success? <==> |OwnedCarts(db.carts, userId)| <= 1
    ensures r.Failure? ==> r.error == NonUniqueCart
    ensures r.Success? ==> |OwnedCarts(r.value.carts, userId)| == 1
    ensures r.Success? ==> r.value.users == db.users
    ensures r.Success? ==> db.carts.Keys <= r.value.carts.Keys
                           && forall c :: c in db.carts ==> r.value.carts[c] == db.carts[c]
    ensures r.Success? && |OwnedCarts(db.carts, userId)| == 1 ==> r.value == db
    ensures r.Success? && |OwnedCarts(db.carts, userId)| == 0 ==>
              r.value.carts == WithNewCart(db.carts, userId)
  {
    var owned := OwnedCarts(db.carts, userId);
    if |owned| > 1 then Failure(NonUniqueCart)
    else if |owned| == 1 then Success(db)
    else Success(db.(carts := WithNewCart(db.carts, userId)))
  }

  /**
   * `registerUser`. Returns the new database and the saved user. The user row is written
   * at the flush before commit, where a phone another user holds violates the column's
   * UNIQUE constraint and the transaction rolls back.
   */
  function RegisterUser(db: UserDb, user: User, enc: Encoder): (r: Result<(UserDb, User), UserError>)
    ensures |EmailOwners(db, user.email)| > 1 ==> r == Failure(NonUniqueEmail)
    ensures |EmailOwners(db, user.email)| == 1 ==> r == Failure(EmailTaken)
    ensures EmailOwners(db, user.email) == {} && user.passwordHash.None? ==> r == Failure(NullPassword)
    ensures (&& EmailOwners(db, user.email) == {} && user.passwordHash.Some?
             && |OwnedCarts(db.carts, AssignedId(db, user))| <= 1
             && PhoneClashes(db, AssignedId(db, user), user.phone) != {})
            ==> r == Failure(PhoneTaken)
    ensures r.Success? <==>
              EmailOwners(db, user.email) == {} && user.passwordHash.Some?
              && |OwnedCarts(db.carts, AssignedId(db, user))| <= 1
              && PhoneClashes(db, AssignedId(db, user), user.phone) == {}
    ensures r.Success? ==>
              var (db', saved) := r.value;
              var id := AssignedId(db, user);
              && saved.userId == Some(id)
              && (user.userId.Some? ==> saved.userId == user.userId)
              && saved.email == user.email && saved.phone == user.phone && saved.role == user.role
              && (HashMarker <= user.passwordHash.value ==> saved.passwordHash == user.passwordHash)
              && (!(HashMarker <= user.passwordHash.value) ==> saved.passwordHash == Some(enc.encode(user.passwordHash.value)))
              && db'.users == db.users[id := saved]
              && |OwnedCarts(db'.carts, id)| == 1
              && (forall c :: c in db.carts ==> c in db'.carts && db'.carts[c] == db.carts[c])
              && (|OwnedCarts(db.carts, id)| == 1 ==> db'.carts == db.carts)
  {
    var id := AssignedId(db, user);
    match ExistsByEmail(db, user.email)
    case Failure(e) => Failure(e)
    case Success(taken) =>
      if taken then Failure(EmailTaken)
      else if user.passwordHash.None? then Failure(NullPassword)
      else
        var saved := user.(userId := Some(id), passwordHash := Some(StoredHash(enc, user.passwordHash.value)));
        var db1 := db.(users := db.users[id := saved]);
        match ProvisionCart(db1, id)
        case Failure(e) => Failure(e)
        case Success(db2) =>
          if PhoneClashes(db, id, user.phone) != {} then Failure(PhoneTaken) else Success((db2, saved))
  }

  /**
   * `saveUser`. The email may be kept by the user that already has it; the password is
   * hashed only when present and unmarked. The cart branch asks whether the user exists
   * after the save, so it never runs. As in `registerUser`, a phone another user holds
   * fails the write at the flush.
   */
  function SaveUser(db: UserDb, user: User, enc: Encoder): (r: Result<(UserDb, User), UserError>)
    ensures |EmailOwners(db, user.email)| > 1 ==> r == Failure(NonUniqueEmail)
    ensures |EmailOwners(db, user.email)| <= 1 ==>
              var id := AssignedId(db, user);
              (r == Failure(EmailTaken) <==>
                 EmailOwners(db, user.email) != {} && !(id in db.users && db.users[id].email == user.email))
    ensures r.Success? ==>
              var (db', saved) := r.value;
              var id := AssignedId(db, user);
              && saved.userId == Some(id)
              && saved.email == user.email && saved.phone == user.phone && saved.role == user.role
              && (user.passwordHash.None? ==> saved.passwordHash.None?)
              && (user.passwordHash.Some? && HashMarker <= user.passwordHash.value ==> saved.passwordHash == user.passwordHash)
              && (user.passwordHash.Some? && !(HashMarker <= user.passwordHash.value) ==>
                    saved.passwordHash == Some(enc.encode(user.passwordHash.value)))
              && db'.users == db.users[id := saved]
              && db'.carts == db.carts
    ensures var id := AssignedId(db, user);
            (&& |EmailOwners(db, user.email)| <= 1
             && (EmailOwners(db, user.email) == {} || (id in db.users && db.users[id].email == user.email))
             && PhoneClashes(db, id, user.phone) != {})
            ==> r == Failure(PhoneTaken)
    ensures var id := AssignedId(db, user);
            r.Success? <==>
              && |EmailOwners(db, user.email)| <= 1
              && (EmailOwners(db, user.email) == {} || (id in db.users && db.users[id].email == user.email))
              && PhoneClashes(db, id, user.phone) == {}
  {
    var id := AssignedId(db, user);
    match ExistsByEmail(db, user.email)
    case Failure(e) => Failure(e)
    case Success(taken) =>
      var keepsOwn := id in db.users && db.users[id].email == user.email;
      if taken && !keepsOwn then Failure(EmailTaken)
      else
        var hash := if user.passwordHash.Some? then Some(StoredHash(enc, user.passwordHash.value)) else None;
        var saved := user.(userId := Some(id), passwordHash := hash);
        var db1 := db.(users := db.users[id := saved]);
        if PhoneClashes(db, id, user.phone) != {} then Failure(PhoneTaken)
        else if id in db1.users then Success((db1, saved))
        else
          match ProvisionCart(db1, id)
          case Failure(e) => Failure(e)
          case Success(db2) => Success((db2, saved))
  }

  /** `passwordEncoder.matches` on a stored hash; a null hash never matches. */
  predicate PasswordMatches(enc: Encoder, password: string, hash: Option<string>)
  {
    hash.Some? && enc.matches(password, hash.value)
  }

  /** The user `authenticateUser` looks at: by email first, then by id. */
  function Candidate(db: UserDb, identifier: string): (r: Result<Option<User>, UserError>)
    ensures r.Failure? <==> |EmailOwners(db, identifier)| > 1
    ensures r.Success? && r.value.Some? ==> r.value.value in db.users.Values
    ensures |EmailOwners(db, identifier)| == 1 ==>
              r.Success? && r.value.Some? && r.value.value.email == identifier
    ensures EmailOwners(db, identifier) == {} ==>
              r == Success(if identifier in db.users then Some(db.users[identifier]) else None)
  {
    var owners := EmailOwners(db, identifier);
    if |owners| > 1 then Failure(NonUniqueEmail)
    else if |owners| == 1 then
      SingletonUnique(owners);
      var id :| id in owners;
      Success(Some(db.users[id]))
    else if identifier in db.users then Success(Some(db.users[identifier]))
    else Success(None)
  }

  /**
   * `authenticateUser(identifier, password)`: the user found by email, else by id, when the
   * password matches its stored hash; otherwise empty.
   */
  function AuthenticateUser(db: UserDb, identifier: string, password: string, enc: Encoder): (r: Result<Option<User>, UserError>)
    ensures r.Failure? <==> |EmailOwners(db, identifier)| > 1
    ensures r.Success? && r.value.Some? ==>
              && r.value.value in db.users.Values
              && PasswordMatches(enc, password, r.value.value.passwordHash)
              && (r.value.value.email == identifier
                  || (EmailOwners(db, identifier) == {} && identifier in db.users
                      && r.value.value == db.users[identifier]))
    ensures EmailOwners(db, identifier) == {} && identifier !in db.users ==> r == Success(None)
    ensures var found := Candidate(db, identifier);
            found.Success? && found.value.Some? ==>
              (r == Success(found.value) <==> PasswordMatches(enc, password, found.value.value.passwordHash))
    ensures r.Success? && r.value.None? ==>
              var found := Candidate(db, identifier);
              found.value.None? || !PasswordMatches(enc, password, found.value.value.passwordHash)
  {
    match Candidate(db, identifier)
    case Failure(e) => Failure(e)
    case Success(found) =>
      if found.Some? && PasswordMatches(enc, password, found.value.passwordHash) then Success(found)
      else Success(None)
  }

  /**
   * `deleteUser`. The carts table declares ON DELETE SET NULL on its user column, so the
   * user's carts stay and lose their owner.
   */
  function DeleteUser(db: UserDb, userId: string): (r: Result<UserDb, UserError>)
    ensures r.Failure? <==> userId !in db.users
    ensures r.Failure? ==> r.error == UserNotFound
    ensures r.Success? ==> r.value.users == db.users - {userId}
    ensures r.Success? ==> r.value.carts.Keys == db.carts.Keys && OwnedCarts(r.value.carts, userId) == {}
    ensures r.Success? ==> forall c :: c in db.carts ==>
              && r.value.carts[c].(ownerId := db.carts[c].ownerId) == db.carts[c]
              && (db.carts[c].ownerId != Some(userId) ==> r.value.carts[c] == db.carts[c])
  {
    if userId !in db.users then Failure(UserNotFound)
    else
      var carts := map c | c in db.carts ::
        if db.carts[c].ownerId == Some(userId) then db.carts[c].(ownerId := None) else db.carts[c];
      Success(UserDb(db.users - {userId}, carts))
  }

  // ------------------------------------------------------------ role listing

  /** `findAll()` lists the stored users in some order: `order` is that order of keys. */
  predicate ListsAll(order: seq<string>, users: map<string, User>)
  {
    && (forall i :: 0 <= i < |order| ==> order[i] in users)
    && (forall id :: id in users ==> id in order)
  }

  /** `stream().filter(keep).toList()` over the listed users. */
  function Filter(users: map<string, User>, order: seq<string>, keep: User -> bool): (r: seq<User>)
    requires forall i :: 0 <= i < |order| ==> order[i] in users
    ensures |r| <= |order|
    ensures forall u :: u in r ==> keep(u) && exists i :: 0 <= i < |order| && users[order[i]] == u
    ensures forall i :: 0 <= i < |order| && keep(users[order[i]]) ==> users[order[i]] in r
  {
    if |order| == 0 then []
    else
      var rest := Filter(users, order[1..], keep);
      assert forall i :: 1 <= i < |order| ==> order[i] == order[1..][i - 1];
      var u := users[order[0]];
      if keep(u) then [u] + rest else rest
  }

  /** The role test as written: `getRole().equals(role != 0)`, an Integer against a Boolean. */
  predicate RoleTestAsWritten(u: User, role: int)
  {
    u.role.Some? && BoxedEquals(BoxedInt(u.role.value), BoxedBool(role != 0))
  }

  /** The role test as intended: the stored role and the argument agree as admin flags. */
  predicate RoleTest(u: User, role: int)
  {
    u.role.Some? && (u.role.value != 0) == (role != 0)
  }

  /** `getUsersByRole` exactly as written. */
  function GetUsersByRoleAsWritten(db: UserDb, order: seq<string>, role: int): (r: seq<User>)
    requires ListsAll(order, db.users)
    ensures forall u :: u in r ==> u in db.users.Values && RoleTestAsWritten(u, role)
  {
    Filter(db.users, order, u => RoleTestAsWritten(u, role))
  }

  /** `getUsersByRole` with the flag comparison: every listed user whose role flag matches. */
  function GetUsersByRole(db: UserDb, order: seq<string>, role: int): (r: seq<User>)
    requires ListsAll(order, db.users)
    ensures forall u :: u in r ==> u in db.users.Values && u.role.Some? && (u.role.value != 0) == (role != 0)
    ensures forall id :: id in db.users && db.users[id].role.Some? && (db.users[id].role.value != 0) == (role != 0)
                         ==> db.users[id] in r
  {
    Filter(db.users, order, u => RoleTest(u, role))
  }

  // ---------------------------------------------------------------- lemmas

  /** The written filter compares values of different classes, so nobody is ever listed. */
  lemma RoleListingAsWrittenIsEmpty(db: UserDb, order: seq<string>, role: int)
    requires ListsAll(order, db.users)
    ensures GetUsersByRoleAsWritten(db, order, role) == []
  {
    forall u: User
      ensures !RoleTestAsWritten(u, role)
    {
    }
    FilterNothingKept(db.users, order, u => RoleTestAsWritten(u, role));
  }

  /** A filter that keeps nobody yields the empty list. */
  lemma {:induction false} FilterNothingKept(users: map<string, User>, order: seq<string>, keep: User -> bool)
    requires forall i :: 0 <= i < |order| ==> order[i] in users
    requires forall u :: !keep(u)
    ensures Filter(users, order, keep) == []
  {
    if |order| > 0 {
      FilterNothingKept(users, order[1..], keep);
    }
  }

  /** An administrator asking for administrators: listed by the intended filter, not by the written one. */
  lemma RoleListingCounterexample(admin: User)
    requires admin.role == Some(1)
    ensures var db := UserDb(map["CUS0001" := admin], map[]);
            && GetUsersByRoleAsWritten(db, ["CUS0001"], 1) == []
            && GetUsersByRole(db, ["CUS0001"], 1) == [admin]
  {
    var db := UserDb(map["CUS0001" := admin], map[]);
    RoleListingAsWrittenIsEmpty(db, ["CUS0001"], 1);
  }

  /** A successful registration stores the user under its id as the one owner of its email. */
  lemma RegisteredOwnsEmail(db: UserDb, user: User, enc: Encoder)
    requires EmailOwners(db, user.email) == {} && user.passwordHash.Some?
    requires |OwnedCarts(db.carts, AssignedId(db, user))| <= 1
    requires PhoneClashes(db, AssignedId(db, user), user.phone) == {}
    ensures RegisterUser(db, user, enc).Success?
    ensures var (db', saved) := RegisterUser(db, user, enc).value;
            var id := AssignedId(db, user);
            && saved.email == user.email && saved.userId == Some(id)
            && db'.users == db.users[id := saved]
            && EmailOwners(db', user.email) == {id}
  {
    var (db', saved) := RegisterUser(db, user, enc).value;
    var id := AssignedId(db, user);
    assert EmailOwners(db', user.email) == {id} by {
      assert forall u :: u in db.users ==> db.users[u].email != user.email;
    }
  }

  /** A registered email cannot be registered again. */
  lemma RegisterTwiceFails(db: UserDb, user: User, other: User, enc: Encoder)
    requires EmailOwners(db, user.email) == {} && user.passwordHash.Some?
    requires |OwnedCarts(db.carts, AssignedId(db, user))| <= 1
    requires PhoneClashes(db, AssignedId(db, user), user.phone) == {}
    requires other.email == user.email
    ensures RegisterUser(db, user, enc).Success?
    ensures RegisterUser(RegisterUser(db, user, enc).value.0, other, enc) == Failure(EmailTaken)
  {
    RegisteredOwnsEmail(db, user, enc);
  }

  /** Provisioning again after provisioning changes nothing. */
  lemma ProvisionIdempotent(db: UserDb, userId: string)
    requires ProvisionCart(db, userId).Success?
    ensures ProvisionCart(ProvisionCart(db, userId).value, userId) == ProvisionCart(db, userId)
  {
  }

  /** A password that BCrypt accepts for its own hash authenticates the user it was registered with. */
  lemma RegisterThenAuthenticate(db: UserDb, user: User, enc: Encoder)
    requires EmailOwners(db, user.email) == {} && user.passwordHash.Some?
    requires |OwnedCarts(db.carts, AssignedId(db, user))| <= 1
    requires PhoneClashes(db, AssignedId(db, user), user.phone) == {}
    requires var raw := user.passwordHash.value;
             !(HashMarker <= raw) && enc.matches(raw, enc.encode(raw))
    ensures RegisterUser(db, user, enc).Success?
    ensures var (db', saved) := RegisterUser(db, user, enc).value;
            AuthenticateUser(db', user.email, user.passwordHash.value, enc) == Success(Some(saved))
  {
    RegisteredOwnsEmail(db, user, enc);
    var (db', saved) := RegisterUser(db, user, enc).value;
    assert saved.passwordHash == Some(enc.encode(user.passwordHash.value));
  }

  /**
   * Email lookup wins: when the identifier is some user's email, another user whose id
   * happens to equal it is never considered.
   */
  lemma EmailBeforeId(db: UserDb, identifier: string, password: string, enc: Encoder, id: string)
    requires EmailsUnique(db)
    requires id in db.users && db.users[id].email == identifier
    ensures AuthenticateUser(db, identifier, password, enc)
            == Success(if PasswordMatches(enc, password, db.users[id].passwordHash) then Some(db.users[id]) else None)
  {
    assert EmailOwners(db, identifier) == {id};
  }

  /** Under unique emails, an email belongs to at most one user. */
  lemma OwnersAtMostOne(db: UserDb, email: string)
    requires EmailsUnique(db)
    ensures |EmailOwners(db, email)| <= 1
  {
    var owners := EmailOwners(db, email);
    if owners != {} {
      var a :| a in owners;
      assert owners == {a};
    }
  }

  /** Saving keeps emails unique. */
  lemma SavePreservesEmailsUnique(db: UserDb, user: User, enc: Encoder)
    requires EmailsUnique(db)
    ensures var r := SaveUser(db, user, enc);
            r.Success? ==> EmailsUnique(r.value.0)
  {
    var r := SaveUser(db, user, enc);
    if r.Success? {
      var id := AssignedId(db, user);
      var owners := EmailOwners(db, user.email);
      if owners != {} {
        assert id in owners;
        var a :| a in owners;
        assert owners == {a};
      }
      assert forall u :: u in db.users && u != id ==> u !in owners;
    }
  }

  /** Registering keeps emails unique. */
  lemma RegisterPreservesEmailsUnique(db: UserDb, user: User, enc: Encoder)
    requires EmailsUnique(db)
    ensures var r := RegisterUser(db, user, enc);
            r.Success? ==> EmailsUnique(r.value.0)
  {
    var r := RegisterUser(db, user, enc);
    if r.Success? {
      assert forall u :: u in db.users ==> u !in EmailOwners(db, user.email);
    }
  }

  /** Writing a user whose phone clashes with nobody keeps non-null phones unique. */
  lemma WritePreservesPhonesUnique(db: UserDb, id: string, saved: User, db': UserDb)
    requires PhonesUnique(db) && PhoneClashes(db, id, saved.phone) == {}
    requires db'.users == db.users[id := saved]
    ensures PhonesUnique(db')
  {
    forall o | o in db.users && o != id && saved.phone.Some?
      ensures db.users[o].phone != saved.phone
    {
      assert o !in PhoneClashes(db, id, saved.phone);
    }
  }

  /** Saving keeps non-null phones unique. */
  lemma SavePreservesPhonesUnique(db: UserDb, user: User, enc: Encoder)
    requires PhonesUnique(db)
    ensures var r := SaveUser(db, user, enc);
            r.Success? ==> PhonesUnique(r.value.0)
  {
    var r := SaveUser(db, user, enc);
    if r.Success? {
      WritePreservesPhonesUnique(db, AssignedId(db, user), r.value.1, r.value.0);
    }
  }

  /** Registering keeps non-null phones unique. */
  lemma RegisterPreservesPhonesUnique(db: UserDb, user: User, enc: Encoder)
    requires PhonesUnique(db)
    ensures var r := RegisterUser(db, user, enc);
            r.Success? ==> PhonesUnique(r.value.0)
  {
    var r := RegisterUser(db, user, enc);
    if r.Success? {
      WritePreservesPhonesUnique(db, AssignedId(db, user), r.value.1, r.value.0);
    }
  }

  /**
   * A fresh email does not get past a phone another user holds: registration and saving
   * both roll back with the constraint violation.
   */
  lemma TakenPhoneRejected(db: UserDb, user: User, enc: Encoder, holder: string)
    requires EmailOwners(db, user.email) == {} && user.passwordHash.Some?
    requires |OwnedCarts(db.carts, AssignedId(db, user))| <= 1
    requires holder in db.users && holder != AssignedId(db, user)
    requires user.phone.Some? && db.users[holder].phone == user.phone
    ensures RegisterUser(db, user, enc) == Failure(PhoneTaken)
    ensures SaveUser(db, user, enc) == Failure(PhoneTaken)
  {
    assert holder in PhoneClashes(db, AssignedId(db, user), user.phone);
  }

  /** Users without a phone never clash on it, however many there are. */
  lemma NullPhoneNeverClashes(db: UserDb, user: User, enc: Encoder)
    requires EmailOwners(db, user.email) == {} && user.passwordHash.Some?
    requires |OwnedCarts(db.carts, AssignedId(db, user))| <= 1
    requires user.phone.None?
    ensures RegisterUser(db, user, enc).Success?
    ensures SaveUser(db, user, enc).Success?
  {
  }

  /** Every user row is stored under its own id. */
  predicate KeyedById(db: UserDb)
  {
    forall k :: k in db.users ==> db.users[k].userId == Some(k)
  }

  /** After a deletion no identifier signs in as the deleted user. */
  lemma DeletedUserCannotAuthenticate(db: UserDb, userId: string, identifier: string, password: string, enc: Encoder)
    requires EmailsUnique(db) && KeyedById(db) && userId in db.users
    ensures var r := AuthenticateUser(DeleteUser(db, userId).value, identifier, password, enc);
            r.Success? && (r.value.Some? ==> r.value.value.userId != Some(userId))
  {
    var db' := DeleteUser(db, userId).value;
    assert EmailsUnique(db');
    OwnersAtMostOne(db', identifier);
    var r := AuthenticateUser(db', identifier, password, enc);
    if r.value.Some? {
      var k :| k in db'.users && db'.users[k] == r.value.value;
      assert k != userId && db.users[k] == db'.users[k];
    }
  }
}
